=== FILE: README.md ===
# s3contents core in Dafny

A model of the core of s3contents, a Jupyter contents manager that keeps
notebooks and files in an S3 bucket. It has two parts, and both sit on a
flat, versioned key store.

- **S3FS** (`s3contents/s3_fs.py`) is a path-addressed file system over
  that store. It turns a logical path into a store key
  `bucket[/prefix]/path` and back (`get_prefix`, `unprefix`, `path`). It
  reads a file either at its latest version or at a version pinned in the
  table `requested_version_id_lookup`, decorates a notebook's metadata with
  version ids, and negotiates the `text`/`base64` output format. It checks
  a write's format and encoding before it stores anything. It simulates
  directories over flat keys with a `.s3keep` placeholder (`mkdir`, `rm`,
  `cp`, `mv`).
- **S3ContentsManager._save_notebook** (`s3contents/s3manager.py`) is the
  save-time reconciliation of three metadata fields: the requested, the
  current and the latest version. It pins a historical version, rejects
  an overwrite of history, saves on the latest path (optionally bumping a
  release-tag counter), or saves plainly when the fields are absent.

Layout, one module per file:

- `types.dfy` (`Types`): options, results, bytes, the error kinds.
- `paths.dfy` (`PathAlgebra`): the configuration, the path algebra, and the
  two standard-library string helpers the core relies on
  (`str.replace(old, new, 1)` and POSIX `os.path.splitext`).
- `store.dfy` (`ObjectStore`): the versioned key store as a value, with the
  client calls S3FS makes (`touch`, `copy`, `rm`, a write, `isfile`,
  `isdir`, `ls`).
- `notebook.dfy` (`Notebook`): the metadata fields the core touches. It
  also holds the codecs (UTF-8, base64, JSON), passed in as function
  values, and the round-trip facts about them, stated as predicates.
- `s3_fs.dfy` (`S3Fs`): the class `S3FS`, which holds the store and the pin
  table, its methods, the pure steps of a read and a write, and the read
  lemmas.
- `s3manager.dfy` (`S3Manager`): the decision, the release tag, the pin
  updates, and the class `S3ContentsManager` with `SaveNotebook`.

Most methods of the two classes are proved against pure functions. `Read`
is proved against `Select` (which version serves the read, and whether the
pin table is emptied) and `Finish` (format negotiation). `Write`,
`WriteNotebook`, `Mkdir`, `Rm` and the single-file cases of `Cp` and `Mv`
are proved against the store operations `Put`, `Delete` and `Copy`.
`SaveNotebook` is proved against `Decide`, `MetadataAfterSave`,
`PinsAfterSave`, `ReleaseCallsOf` and `Saved`. The lemmas state the
properties of those functions. The directory cases of `Cp` and `Mv` are
different. They are proved only for a flat copy (`FlatCopy`): every listed
entry is a plain file, no target is an entry's key or lies under one, and
distinct entries have distinct targets. `FlatCopyExample` shows such a
copy. `Cp` is proved against predicates over the old and the new store:
`Copied` (each entry's bytes are at its target) and `OnlyTargets` (nothing
else changes but the placeholder). `Mv` states `OnlyTargets` as well, but
states `Copied` only for targets outside the old directory, since the
removal that follows the copy deletes the others. It also states that
every key outside the old directory survives and that nothing is left
inside it.

Where the prose description of the system and the code differ, the model
follows the code:

- A save that changes the version on the latest path leaves the requested
  id pinned (`s3contents/s3manager.py:107-108`); it does not clear the pin.
- The pin branch of a save never writes (`s3contents/s3manager.py:91-92`).
- Only a failure to parse or decorate the pinned version sends a read back
  to the latest version. A pinned version that cannot be opened is an
  error (`s3contents/s3_fs.py:216-227`).
- `path` is not idempotent on the empty path (`KeyNotIdempotentOnEmpty`).
- `path` is not injective. A top-level name that starts with the root
  prefix (the bucket when no prefix is configured) loses it: under bucket
  `nb` and no prefix, `nbx` and `x` have the same key
  (`KeyCollision`, `KeyCollisionExample`). A leading delimiter is lost
  too: `/x` and `x` have the same key (`DelimiterCollision`).
  `KeyInjective` holds only for paths that unprefix leaves alone, and that
  condition excludes both kinds of collision.
- A write unprefixes its path once more than a read does
  (`s3contents/s3_fs.py:258` against `s3contents/s3_fs.py:194`), so the two
  can use different keys (`WriteReadKeysDiffer`). The round-trip lemmas
  assume the two keys coincide, which every path in normal form meets
  (`NormalizedWriteKey`).

## Model

| member | source | states |
|---|---|---|
| PathAlgebra.GetPrefix | s3contents/s3_fs.py:286-291 | the root prefix starts with the bucket; it is exactly the bucket iff no prefix is configured, and otherwise the bucket is followed by the delimiter and the prefix |
| PathAlgebra.StripRoot | s3contents/s3_fs.py:297 | the result is a suffix of the path, shorter by the root's length when the path starts with the root, and the path itself otherwise |
| PathAlgebra.StripDelimiter | s3contents/s3_fs.py:298 | exactly one character is dropped when the path starts with the delimiter, whatever the delimiter's length; otherwise the path is unchanged |
| PathAlgebra.UnprefixOne | s3contents/s3_fs.py:294-299 | unprefix of a string yields a suffix of it; a path with neither the root nor a leading delimiter is unchanged; with a one-character delimiter, `root + delimiter + rest` yields `rest` |
| PathAlgebra.StripRootEach | s3contents/s3_fs.py:301 | the first list comprehension keeps the length and strips the root from each element |
| PathAlgebra.StripDelimiterEach | s3contents/s3_fs.py:302 | the second list comprehension keeps the length and drops a leading delimiter character from each element |
| PathAlgebra.Unprefix | s3contents/s3_fs.py:300-303 | the list branch of unprefix equals the string branch applied to every element |
| PathAlgebra.NonEmpty | s3contents/s3_fs.py:307 | `filter(None, ...)` never lengthens the list, leaves no empty segment, and keeps every non-empty one |
| PathAlgebra.NonEmptyAppend | s3contents/s3_fs.py:307 | filtering a concatenation is the concatenation of the filtered parts, so the kept segments keep their order |
| PathAlgebra.NonEmptyCounts | s3contents/s3_fs.py:307 | every non-empty segment occurs as often after filtering as before |
| PathAlgebra.NonEmptySingle | s3contents/s3_fs.py:307 | a single segment is kept exactly when it is not empty |
| PathAlgebra.Path | s3contents/s3_fs.py:305-310 | the key always starts with the root prefix; with no non-empty segment it is the root prefix; otherwise it is the root prefix, the delimiter and the unprefixed segments joined by the delimiter |
| PathAlgebra.FullKey | s3contents/s3_fs.py:305-310 | `path("")` is the root prefix; `path(p)` for a non-empty p is the root prefix, the delimiter and `unprefix(p)` |
| PathAlgebra.UnprefixKey | s3contents/s3_fs.py:294-310 | for a one-character delimiter, `unprefix(path(x)) == unprefix(x)` for every x |
| PathAlgebra.KeyIdempotent | s3contents/s3_fs.py:305-310 | for a one-character delimiter, `path(path(x)) == path(x)` for every non-empty x |
| PathAlgebra.KeyNotIdempotentOnEmpty | s3contents/s3_fs.py:305-310 | with a non-empty root, `path("")` is the root but `path(path(""))` is the root followed by the delimiter |
| PathAlgebra.KeyInjective | s3contents/s3_fs.py:294-310 | two paths that unprefix leaves alone map to the same key only if they are equal |
| PathAlgebra.KeyCollision | s3contents/s3_fs.py:294-310 | with a non-empty root, a plain path x and the different path root + x get the same key |
| PathAlgebra.KeyCollisionExample | s3contents/s3_fs.py:294-310 | under bucket `nb`, the paths `nbx` and `x` are different and get the same key |
| PathAlgebra.DelimiterCollision | s3contents/s3_fs.py:294-310 | with a one-character delimiter, a path with a leading delimiter and the same path without it are different but get the same key |
| PathAlgebra.KeyUnderRoot | s3contents/s3_fs.py:305-310 | every key followed by the delimiter starts with the root prefix and the delimiter |
| PathAlgebra.UnprefixUnderRoot | s3contents/s3_fs.py:294-299 | with a one-character delimiter, unprefix of root + delimiter + rest is rest |
| PathAlgebra.EntryKey | s3contents/s3_fs.py:294-310 | a key under the root and the delimiter whose unprefixed form is non-empty and in normal form is the key `path` builds for that form |
| PathAlgebra.KeyOfPlainPath | s3contents/s3_fs.py:294-310 | a non-empty path without the root or a leading delimiter gets the key root + delimiter + path |
| PathAlgebra.KeyExample | s3contents/s3_fs.py:286-310 | under bucket `nb` and prefix `proj`, `path("a/b.ipynb")` is `nb/proj/a/b.ipynb` |
| PathAlgebra.UnprefixExample | s3contents/s3_fs.py:294-299 | under bucket `nb` and prefix `proj`, `unprefix("nb/proj/a/b.ipynb")` is `a/b.ipynb` |
| PathAlgebra.KeyInBucket | s3contents/s3_fs.py:305-310 | every key `path` builds starts with the bucket name |
| PathAlgebra.JoinCons | s3contents/s3_fs.py:310 | `d.join([x] + rest)` is x, d, then the join of the non-empty rest |
| PathAlgebra.NonEmptyPair | s3contents/s3_fs.py:307 | filtering `[p, q]` with a non-empty q drops p exactly when p is empty |
| PathAlgebra.JoinPair | s3contents/s3_fs.py:310 | `d.join([x, y])` is x, d, y |
| PathAlgebra.UnprefixPair | s3contents/s3_fs.py:300-303 | unprefix of a two-element list is the two unprefixed elements |
| PathAlgebra.PathTwo | s3contents/s3_fs.py:305-310 | `path(p, q)` is the key of p, the delimiter and `unprefix(q)`; an empty p is dropped and the key starts at the root |
| PathAlgebra.MarkerUnderDirectory | s3contents/s3_fs.py:168-171 | with delimiter "/" and a non-empty placeholder name, the placeholder key `path(p, dir_keep_file)` lies under the directory's key followed by "/", so touching it makes the directory visible |
| PathAlgebra.ReplaceFirst | s3contents/s3_fs.py:151 | `s.replace(old, new, 1)` on a string that starts with `old` is `new` followed by the rest of the string |
| PathAlgebra.ReplaceFirstAt | s3contents/s3_fs.py:151 | the first occurrence of a non-empty pattern, at index i, is replaced, and everything before and after it is kept |
| PathAlgebra.ReplaceFirstAbsent | s3contents/s3_fs.py:151 | a string in which a non-empty pattern does not occur comes back unchanged |
| PathAlgebra.LastIndex | s3contents/s3_fs.py:196 | the index found holds the character, and no later index does; -1 means there is none |
| PathAlgebra.LastIndexIs | s3contents/s3_fs.py:196 | an index that holds the character, with none after it, is the one `rfind` returns |
| PathAlgebra.Extension | s3contents/s3_fs.py:196 | the extension is a suffix of the path; when non-empty it starts with a dot and contains no other dot and no "/" |
| PathAlgebra.ExtensionRule | s3contents/s3_fs.py:196 | a path has an extension exactly when its last component has a dot after a character that is not a dot, which is splitext's rule for leading dots |
| PathAlgebra.NotebookSuffix | s3contents/s3_fs.py:196 | the notebook test `splitext(path)[1] == ".ipynb"` holds exactly when the path ends in `.ipynb` and its last component has a character other than a dot before that suffix |
| PathAlgebra.NotebookExample | s3contents/s3_fs.py:196 | `a/b.ipynb` is a notebook path |
| PathAlgebra.DotFileNotNotebook | s3contents/s3_fs.py:196 | a bare `.ipynb` is not a notebook path, because splitext gives it no extension |
| PathAlgebra.HiddenFileNotNotebook | s3contents/s3_fs.py:196 | `a/.ipynb` is not a notebook path either |
| ObjectStore.Put | s3contents/s3_fs.py:275-276 | a write makes the bytes the key's live content under a fresh version id; every older version is kept unchanged; the store stays consistent |
| ObjectStore.Delete | s3contents/s3_fs.py:162-165 | removing keys takes exactly them out of the live map and keeps the history |
| ObjectStore.Copy | s3contents/s3_fs.py:155 | a server-side copy gives the destination the source's live bytes |
| ObjectStore.KeysUnder | s3contents/s3_fs.py:165 | the keys a recursive rm deletes are exactly the live keys under the prefix |
| ObjectStore.FirstSegment | s3contents/s3_fs.py:119 | the first segment of a key is a prefix of it without "/", and it ends at the end of the key or at a "/" |
| ObjectStore.ChildEntry | s3contents/s3_fs.py:119 | the listing entry for a key below a directory is below the directory and is a prefix of the key; it has no "/" after the directory's and ends where the key ends or at a "/", so it is one level below the directory |
| ObjectStore.Listing | s3contents/s3_fs.py:116-120 | every entry of a listing lies under the directory, every key under the directory is represented by its entry, and every entry is the entry of some key under the directory |
| ObjectStore.NotDirAfterPut | s3contents/s3_fs.py:130-136 | writing a key that is not under `d + "/"` does not make `d` a directory |
| ObjectStore.DirIffListed | s3contents/s3_fs.py:116-136 | `isdir` holds exactly when `ls` has an entry, and exactly when a recursive `rm` of the directory has a key to delete |
| ObjectStore.ListedEntryKind | s3contents/s3_fs.py:116-136 | every entry of a listing is a file or a directory of the store |
| ObjectStore.ChildEntryOfFile | s3contents/s3_fs.py:119 | a key directly inside a directory is listed as itself |
| ObjectStore.ListingOfOne | s3contents/s3_fs.py:116-120 | a store with one key below a directory lists exactly that key's entry |
| Notebook.SlotValue | s3contents/s3manager.py:92 | the pin stored for a present version field is the id when there is one, and None when the field is null |
| Notebook.DecorateLatest | s3contents/s3_fs.py:207-210 | a latest-version read sets the version list, requested to null, current and latest to the latest id, and changes nothing else |
| Notebook.DecoratePinned | s3contents/s3_fs.py:220-223 | a pinned read sets the version list, requested and current to the pin, latest to the latest id, and changes nothing else |
| S3Fs.LoadLatest | s3contents/s3_fs.py:202-212 | a non-notebook's latest bytes come back unchanged; a notebook that does not parse is an error; one that parses comes back with its metadata decorated for the latest version; the only errors are a parse failure and an encoding failure of the key |
| S3Fs.DecoratedPin | s3contents/s3_fs.py:218-224 | a pinned version that does not parse fails the guarded block; one that parses comes back decorated with the pin |
| S3Fs.Select | s3contents/s3_fs.py:195-230 | the pin table is emptied only for a truthy pin on a notebook; a selection fails only when the pinned version does not exist (then the pin is truthy, the path is a notebook and the error names the key and the pin) or when a notebook does not parse or encode; conversely a truthy pin on a notebook whose version does not exist always fails with that error and keeps the pins |
| S3Fs.Negotiate | s3contents/s3_fs.py:232-242 | an error exactly when the format is 'text' and the bytes are not UTF-8; text exactly when the format is None or 'text' and the bytes decode, with the decoded string; base64 of the bytes otherwise |
| S3Fs.Finish | s3contents/s3_fs.py:232-242 | an error from the selection passes through unchanged; a selected content fails only for format 'text' on bytes that are not UTF-8; format 'base64' always gives the base64 text of the bytes |
| S3Fs.EncodeForWrite | s3contents/s3_fs.py:260-274 | a format other than text or base64 is rejected; a text write stores the UTF-8 encoding and fails iff it fails; a base64 write stores the decoded bytes and fails iff decoding fails |
| S3Fs.S3FS.constructor | s3contents/s3_fs.py:71-105 | a new file system starts with an empty pin table and touches the root directory's placeholder |
| S3Fs.S3FS.Read | s3contents/s3_fs.py:193-242 | a path that is not a file gives NoSuchFile and keeps the pins; otherwise the result is the selected content after format negotiation, and the pin table is emptied exactly when the selection says so |
| S3Fs.S3FS.Write | s3contents/s3_fs.py:257-276 | nothing is stored when the format or the encoding fails; otherwise the encoded bytes are stored at `path(unprefix(p))` |
| S3Fs.S3FS.WriteNotebook | s3contents/s3_fs.py:278-282 | the UTF-8 bytes of the text are stored at `path(unprefix(p))`, or nothing changes if the text cannot be encoded |
| S3Fs.S3FS.Mkdir | s3contents/s3_fs.py:168-171 | the directory's placeholder key is touched, and the directory is then visible |
| S3Fs.S3FS.Rm | s3contents/s3_fs.py:157-166 | a file loses its one key; a directory loses every key under its key and the delimiter; anything else is left alone |
| S3Fs.S3FS.Cp | s3contents/s3_fs.py:143-155 | a file is copied onto the new key; a path that is neither changes nothing; a directory copy never removes a key and ends with the new directory's placeholder, and for a flat copy every listed entry's bytes are found at its path with the old directory replaced by the new one, and every other changed key is such a target or the placeholder |
| S3Fs.S3FS.CopyChildren | s3contents/s3_fs.py:147-152 | the loop over the listing never removes a key; for a flat copy every entry's target holds the entry's bytes and nothing but targets changes |
| S3Fs.S3FS.Mv | s3contents/s3_fs.py:138-141 | afterwards the old path is never a file; a file's bytes move to the new key and the old key is gone; a path that is neither changes nothing; for a flat directory move, no key is left under the old directory, every other key survives, every added or changed key is a target or the new placeholder, the placeholder exists when it lies outside the old directory, and every target outside the old directory holds its entry's old bytes |
| S3Fs.CopyStep | s3contents/s3_fs.py:149-152 | one iteration of the copy loop keeps its three facts: the entries still to do are untouched plain files, every entry done has its bytes at its target, and only targets have changed |
| S3Fs.PendingStep | s3contents/s3_fs.py:149-152 | copying one entry leaves every other pending entry's bytes in place and keeps it a plain file |
| S3Fs.CopiedStep | s3contents/s3_fs.py:149-152 | after copying one entry, every entry done, that one included, has its bytes at its target |
| S3Fs.CopiedEntry | s3contents/s3_fs.py:149-152 | one entry after a copy step: the entry just copied, or one copied earlier whose target the step did not touch, holds its bytes at its target |
| S3Fs.OnlyTargetsStep | s3contents/s3_fs.py:149-152 | after copying one entry, every changed key other than the placeholder is the target of an entry done |
| S3Fs.MarkerStep | s3contents/s3_fs.py:153 | touching the new placeholder keeps every copied target and changes no other key |
| S3Fs.FlatCopyExample | s3contents/s3_fs.py:143-153 | the directory-copy guarantees apply: under bucket `nb`, a store holding only `nb/a/x` lists `a/x` in `a`, and copying `a` to `b` is a flat copy onto `nb/b/x` |
| S3Fs.TargetOutsideNewKey | s3contents/s3_fs.py:151-153 | a copy target need not lie under the new directory's key: under bucket `nb`, copying `a` onto `nb` sends `a/x` to `nb/x`, while the new directory's key is `nb/` |
| S3Fs.FlatOntoBucketName | s3contents/s3_fs.py:147-153 | that copy of a store holding only `nb/a/x` is a flat copy, so `Cp`'s directory guarantees cover it |
| S3Fs.ExampleListing | s3contents/s3_fs.py:116-120 | under bucket `nb`, `ls("a")` of a store holding only `nb/a/x` is `a/x` |
| S3Fs.ExampleTarget | s3contents/s3_fs.py:151 | in that example, `a/x` has the key `nb/a/x` and the copy target `nb/b/x`, which lies apart from it |
| S3Fs.ListedChildKey | s3contents/s3_fs.py:116-120 | with delimiter "/", a non-empty child that `ls` returns and unprefix leaves alone is addressed by `path` at the very key the store listed, and that key is a file or a directory |
| S3Fs.ReadPinned | s3contents/s3_fs.py:214-224 | with a truthy pin on a notebook whose pinned version parses, the read serves the pinned version's document, decorated with the pin as requested and current and the latest id as latest, and keeps the pins |
| S3Fs.ReadLatest | s3contents/s3_fs.py:202-230 | without a truthy pin, or for a non-notebook, the read keeps the pins and serves the latest version: the bytes unchanged for a non-notebook, and for a notebook the latest document decorated with requested null and current equal to latest |
| S3Fs.ReadFallback | s3contents/s3_fs.py:218-227 | the whole pin table is emptied exactly when a pinned notebook version opens but fails to parse or decorate, and the read then serves the latest content |
| S3Fs.NormalizedWriteKey | s3contents/s3_fs.py:258 | a path in normal form is written under the key a read looks up |
| S3Fs.WriteReadKeysDiffer | s3contents/s3_fs.py:258 | with no prefix and the path equal to the delimiter, a write goes to the bucket's own key while a read looks up the bucket followed by the delimiter |
| S3Fs.TextRoundTrip | s3contents/s3_fs.py:232-276 | a text write followed by a text read of a non-notebook returns the written string, whenever the write key and the read key coincide |
| S3Fs.Base64RoundTrip | s3contents/s3_fs.py:232-276 | a base64 write followed by a base64 read of a non-notebook returns the written string when it is the canonical encoding of its bytes, whenever the write key and the read key coincide |
| S3Manager.Tagged | s3contents/s3manager.py:98-106 | the release tag becomes 0 when absent and the old tag plus one otherwise; the release request is removed; nothing else in the metadata changes |
| S3Manager.Decide | s3contents/s3manager.py:77-97 | the save branch, as an if-and-only-if per outcome: a plain save exactly without the versioning fields, a pin, a reject, and a latest-path save for the two latest cases, recording whether the version changed |
| S3Manager.MetadataAfterSave | s3contents/s3manager.py:97-106 | the saved metadata keeps the version list, the other keys and the three version fields, so it makes the same decision again; it differs from the input only on a latest-path save with a release request, which it removes |
| S3Manager.PinsAfterSave | s3contents/s3manager.py:91-110 | a pin or latest-path save adds the path to the pin table, a plain save or a reject leaves the table unchanged, other paths keep their pins, and a truthy pin recorded for the path is the requested id |
| S3Manager.ReleaseCallsOf | s3contents/s3manager.py:97-106 | a save makes at most one release call, exactly on a latest-path save with a release request, for the path, the requested name and the tag the saved metadata records |
| S3Manager.Saved | s3contents/s3manager.py:68-74 | save_model writes the UTF-8 JSON text of the content at the notebook's key and returns the model's message; if encoding fails it reports it and writes nothing |
| S3Manager.S3ContentsManager.SaveModel | s3contents/s3manager.py:68-74 | the store and the result are those of `Saved` on the old store |
| S3Manager.S3ContentsManager.SaveNotebook | s3contents/s3manager.py:67-111 | a reject changes nothing and reports 'Cannot overwrite older versions'; otherwise the pins become `PinsAfterSave`, the release calls grow by `ReleaseCallsOf`, a pin writes nothing and returns None, and a plain or latest save writes the JSON of the content with the updated metadata |
| S3Manager.ExactlyOneCase | s3contents/s3manager.py:82-89 | with all three fields present, exactly one of the four derived cases holds |
| S3Manager.DecisionTable | s3contents/s3manager.py:76-95 | each outcome of a save, stated as an if-and-only-if on the three fields: plain save iff a field is missing, pin, reject, and the two latest-path saves |
| S3Manager.PinsAfterEachSave | s3contents/s3manager.py:91-110 | pin and version-changed-latest saves pin the requested id; other latest-path saves set the pin to None; plain saves and rejects leave the table alone |
| S3Manager.ReleaseOnlyOnLatestSave | s3contents/s3manager.py:97-106 | the metadata is written unchanged unless a latest-path save has a release request, which removes the request and bumps the tag |
| S3Manager.ReleaseCounter | s3contents/s3manager.py:98-102 | starting without a tag, the n-th release of a document is tagged n - 1 |
| S3Manager.SaveThenReadPinned | s3contents/s3manager.py:107-108 | after a version-changed save on the latest path, the save succeeds and keeps the requested version in the store, and the next read of the notebook serves that requested version's document, decorated with it as requested and current, not the content just written |

## Left out

- S3Fs.S3FS.Cp: for a directory, which entries land where is stated only for a flat copy and `fuel > 0`. A flat copy has plain-file entries, no target that is an entry's key or lies under one, and distinct targets. Sub-directories are copied by the recursion, and entries whose targets overlap are copied too, but the contract does not describe the result for them. The recursion is bounded by `fuel`: a target can lie inside the source directory, so the store can grow while the copy runs and termination does not follow from the code.
- S3Fs.S3FS.CopyChildren: the same restriction to flat copies as `Cp`.
- S3Fs.S3FS.Mv: for a directory, the guarantees have the hypotheses of `Cp`, and two more: the old directory's key is neither the new placeholder nor a target. Targets inside the old directory are deleted by the removal that follows the copy, and so is a placeholder inside it; the contract says so, and states the copied bytes and the placeholder only outside the old directory.
- ObjectStore.Listing: the order of `ls` results is not modelled. A listing is a set of entries, and `Cp` visits them in any order.
- `get_versions` and `get_latest_version` (s3contents/s3_fs.py:173-191) are calls to the store's version-listing service. The version list is a parameter of `Read`, and the latest id is the key's latest id in the store. The source queries the listing by the logical path as a key prefix and takes its first entry; the model does not capture that query. With a configured prefix that query does not find the notebook's key, so the source then fails or decorates with the versions of another key, while the model always serves the key's own history.
- The codecs (UTF-8, base64, `json.loads`/`json.dumps`) are function values. Their round-trip facts are hypotheses of the lemmas that need them, and they are not reimplemented.
- `check_and_sign`, `validate_notebook_model` and `from_dict` are defined in genericmanager, which is not part of this model; `SaveModel` does not model them. `create_release_tag` is not defined in s3_fs.py; the model records each call in `releaseCalls`.
- `int(...)` of the stored release tag is not modelled: the tag is an integer in the metadata.
- The `version_aware` flag toggle, s3fs caching and `refresh`, `invalidate_cache`, `info` and `lstat` are client plumbing.
- Logging, the configuration traits, the credentials and session, `init_s3_hook`, and the AccessDenied exit in `init` are configuration and I/O.
- The pin table is shared without synchronisation. Concurrency is not modelled; every operation runs on its own.
- Exceptions the store client raises (network errors, permissions) are not modelled. The only failure of a store call in the model is a pinned version that does not exist.

=== FILE: notebook.dfy ===
/** The part of a notebook document the core reads and writes: the version
    fields of its metadata block. The JSON, UTF-8 and base64 codecs are not
    reimplemented; they are function values handed to the file system, and
    the facts the core relies on (decoding what was encoded gives it back)
    are predicates that the lemmas assume as hypotheses. */
module Notebook {
  import opened Types
  import opened ObjectStore

  /** A version field of the metadata: key absent, JSON null, or an id. */
  datatype VersionSlot = Missing | Null | Id(id: VersionId)

  /** One entry of `s3_versions` (s3_fs.py:190). */
  datatype VersionRecord = VersionRecord(
    versionId: VersionId,
    timestamp: string,
    tags: seq<(string, string)>,
    isLatest: bool)

  /** The metadata block: `s3_versions`, `s3_requested_version`,
      `s3_current_version`, `s3_latest_version`, `s3_create_release`,
      `s3_latest_release_tag`, and every other key, kept as it is. */
  datatype Metadata = Metadata(
    versions: Option<seq<VersionRecord>>,
    requested: VersionSlot,
    current: VersionSlot,
    latest: VersionSlot,
    createRelease: Option<string>,
    releaseTag: Option<int>,
    other: map<string, string>)

  /** A notebook: its metadata and the rest of the document (cells, format
      numbers), which the core never looks into. */
  datatype Notebook = Notebook(metadata: Metadata, body: string)

  /** The codecs the core calls: `str.encode('utf8')`, `bytes.decode('utf-8')`,
      `base64.b64encode`, `base64.b64decode` (of the ASCII bytes),
      `json.loads` followed by the lookup of the metadata block, and
      `json.dumps`. A `None` is the exception the codec raises. */
  datatype Codecs = Codecs(
    utf8Encode: string -> Option<Bytes>,
    utf8Decode: Bytes -> Option<string>,
    b64Encode: Bytes -> string,
    b64Decode: string -> Option<Bytes>,
    parseNotebook: Bytes -> Option<Notebook>,
    dumpNotebook: Notebook -> string)

  /** UTF-8 decoding inverts UTF-8 encoding. */
  ghost predicate Utf8RoundTrip(c: Codecs)
  {
    forall s :: c.utf8Encode(s).Some? ==> c.utf8Decode(c.utf8Encode(s).value) == Some(s)
  }

  /** base64 decoding inverts base64 encoding. */
  ghost predicate Base64RoundTrip(c: Codecs)
  {
    forall b :: c.b64Decode(c.b64Encode(b)) == Some(b)
  }

  /** `json.dumps` produces ASCII text that encodes without error and that
      `json.loads` reads back as the same notebook. */
  ghost predicate JsonRoundTrip(c: Codecs)
  {
    forall n :: c.utf8Encode(c.dumpNotebook(n)).Some? &&
                c.parseNotebook(c.utf8Encode(c.dumpNotebook(n)).value) == Some(n)
  }

  /** Python truthiness of a pinned version id: present and not empty. */
  predicate Truthy(pin: Option<VersionId>)
  {
    pin.Some? && pin.value != []
  }

  /** The value of a present version field, as stored in the pin table. */
  function SlotValue(s: VersionSlot): (v: Option<VersionId>)
    requires !s.Missing?
    ensures v.Some? <==> s.Id?
    ensures v.Some? ==> v.value == s.id
  {
    if s.Id? then Some(s.id) else None
  }

  /** The decoration a read of the latest version applies (s3_fs.py:207-210). */
  function DecorateLatest(n: Notebook, history: seq<VersionRecord>, latestId: VersionId): (r: Notebook)
    ensures r.body == n.body
    ensures r.metadata.requested == Null
    ensures r.metadata.current == r.metadata.latest == Id(latestId)
    ensures r.metadata.versions == Some(history)
    ensures r.metadata.createRelease == n.metadata.createRelease
    ensures r.metadata.releaseTag == n.metadata.releaseTag
    ensures r.metadata.other == n.metadata.other
  {
    n.(metadata := n.metadata.(versions := Some(history), requested := Null,
                                current := Id(latestId), latest := Id(latestId)))
  }

  /** The decoration a read of a pinned version applies (s3_fs.py:220-223). */
  function DecoratePinned(n: Notebook, history: seq<VersionRecord>, pin: VersionId, latestId: VersionId): (r: Notebook)
    ensures r.body == n.body
    ensures r.metadata.requested == r.metadata.current == Id(pin)
    ensures r.metadata.latest == Id(latestId)
    ensures r.metadata.versions == Some(history)
    ensures r.metadata.createRelease == n.metadata.createRelease
    ensures r.metadata.releaseTag == n.metadata.releaseTag
    ensures r.metadata.other == n.metadata.other
  {
    n.(metadata := n.metadata.(versions := Some(history), requested := Id(pin),
                                current := Id(pin), latest := Id(latestId)))
  }
}

=== FILE: paths.dfy ===
/** The path algebra of S3FS: how a logical path becomes a store key
    `bucket[/prefix]/path` and back (s3_fs.py:286-310), together with the
    two string helpers of the standard library that the file system leans
    on: `str.replace(old, new, 1)` and `os.path.splitext`. */
module PathAlgebra {

  /** The configuration traits the path algebra reads (s3_fs.py:49-60). */
  datatype Config = Config(bucket: string, prefix: string, delimiter: string, keepFile: string)

  predicate StartsWith(s: string, p: string) { |p| <= |s| && s[..|p|] == p }

  predicate EndsWith(s: string, p: string) { |p| <= |s| && s[|s| - |p|..] == p }

  /** get_prefix: the bucket, followed by the delimiter and the prefix
      when a prefix is configured. */
  function GetPrefix(c: Config): (r: string)
    ensures StartsWith(r, c.bucket)
    ensures c.prefix == [] <==> |r| == |c.bucket|
    ensures c.prefix != [] ==> r[|c.bucket|..] == c.delimiter + c.prefix
  {
    if c.prefix == [] then c.bucket else c.bucket + c.delimiter + c.prefix
  }

  /** First step of unprefix: drop a leading root prefix. */
  function StripRoot(c: Config, p: string): (r: string)
    ensures EndsWith(p, r)
    ensures StartsWith(p, GetPrefix(c)) ==> |r| == |p| - |GetPrefix(c)|
    ensures !StartsWith(p, GetPrefix(c)) ==> r == p
  {
    var root := GetPrefix(c);
    if StartsWith(p, root) then p[|root|..] else p
  }

  /** Second step of unprefix: drop ONE character when the path starts with
      the delimiter (`path[1:]`, whatever the delimiter's length). */
  function StripDelimiter(c: Config, p: string): (r: string)
    ensures EndsWith(p, r)
    ensures StartsWith(p, c.delimiter) && p != [] ==> |r| == |p| - 1
    ensures !StartsWith(p, c.delimiter) ==> r == p
  {
    if StartsWith(p, c.delimiter) then (if p == [] then [] else p[1..]) else p
  }

  /** unprefix on a single string (s3_fs.py:296-299). */
  function UnprefixOne(c: Config, p: string): (r: string)
    ensures EndsWith(p, r)
    ensures !StartsWith(p, GetPrefix(c)) && !StartsWith(p, c.delimiter) ==> r == p
    ensures |c.delimiter| == 1 && StartsWith(p, GetPrefix(c) + c.delimiter) ==>
              r == p[|GetPrefix(c)| + 1..]
  {
    var root := GetPrefix(c);
    assert |c.delimiter| == 1 && StartsWith(p, root + c.delimiter) ==>
             p[..|root|] == (root + c.delimiter)[..|root|] == root &&
             p[|root|..][..1] == (root + c.delimiter)[|root|..] == c.delimiter;
    StripDelimiter(c, StripRoot(c, p))
  }

  /** The list comprehension of s3_fs.py:301. */
  function StripRootEach(c: Config, ps: seq<string>): (r: seq<string>)
    ensures |r| == |ps|
    ensures forall i :: 0 <= i < |ps| ==> r[i] == StripRoot(c, ps[i])
  {
    if ps == [] then [] else [StripRoot(c, ps[0])] + StripRootEach(c, ps[1..])
  }

  /** The list comprehension of s3_fs.py:302. */
  function StripDelimiterEach(c: Config, ps: seq<string>): (r: seq<string>)
    ensures |r| == |ps|
    ensures forall i :: 0 <= i < |ps| ==> r[i] == StripDelimiter(c, ps[i])
  {
    if ps == [] then [] else [StripDelimiter(c, ps[0])] + StripDelimiterEach(c, ps[1..])
  }

  /** unprefix on a list (s3_fs.py:300-303): the list branch is the string
      branch applied to every element. */
  function Unprefix(c: Config, ps: seq<string>): (r: seq<string>)
    ensures |r| == |ps|
    ensures forall i :: 0 <= i < |ps| ==> r[i] == UnprefixOne(c, ps[i])
  {
    StripDelimiterEach(c, StripRootEach(c, ps))
  }

  /** `filter(None, path)`: the segments that are not empty, in order. */
  function NonEmpty(segs: seq<string>): (r: seq<string>)
    ensures |r| <= |segs|
    ensures forall i :: 0 <= i < |r| ==> r[i] != []
    ensures [] !in r
    ensures forall s :: s in r <==> s in segs && s != []
  {
    if segs == [] then []
    else
      if segs[0] == [] then NonEmpty(segs[1..])
      else [segs[0]] + NonEmpty(segs[1..])
  }

  /** filter keeps the order: filtering a concatenation filters each part.
      With NonEmpty([x]) this determines NonEmpty on every list. */
  lemma {:induction false} NonEmptyAppend(a: seq<string>, b: seq<string>)
    ensures NonEmpty(a + b) == NonEmpty(a) + NonEmpty(b)
  {
    if a != [] {
      assert (a + b)[0] == a[0];
      assert (a + b)[1..] == a[1..] + b;
      NonEmptyAppend(a[1..], b);
    } else {
      assert a + b == b;
    }
  }

  /** filter drops only empty segments: every non-empty segment occurs in
      the result exactly as often as in the input. */
  lemma {:induction false} NonEmptyCounts(segs: seq<string>)
    ensures forall s :: s != [] ==> multiset(NonEmpty(segs))[s] == multiset(segs)[s]
  {
    if segs != [] {
      assert segs == [segs[0]] + segs[1..];
      NonEmptyCounts(segs[1..]);
    }
  }

  /** filter(None, [x]): the segment itself, unless it is empty. */
  lemma NonEmptySingle(x: string)
    ensures NonEmpty([x]) == if x == [] then [] else [x]
  {
    assert [x][1..] == [];
  }

  /** `delimiter.join(items)`. */
  function Join(d: string, items: seq<string>): string
  {
    if items == [] then []
    else if |items| == 1 then items[0]
    else items[0] + d + Join(d, items[1..])
  }

  /** path(*segs) (s3_fs.py:305-310): drop empty segments, unprefix the
      rest and join them after the root prefix. */
  function Path(c: Config, segs: seq<string>): (r: string)
    ensures StartsWith(r, GetPrefix(c))
    ensures NonEmpty(segs) == [] ==> r == GetPrefix(c)
    ensures NonEmpty(segs) != [] ==>
              r == GetPrefix(c) + c.delimiter + Join(c.delimiter, Unprefix(c, NonEmpty(segs)))
  {
    var root, rest := GetPrefix(c), Unprefix(c, NonEmpty(segs));
    var items := [root] + rest;
    assert items[0] == root && items[1..] == rest;
    assert |rest| == |NonEmpty(segs)|;
    var r := Join(c.delimiter, items);
    assert r[..|root|] == root;
    r
  }

  /** The store key of one logical path, `path(p)`. */
  function FullKey(c: Config, p: string): (r: string)
    ensures p == [] ==> r == GetPrefix(c)
    ensures p != [] ==> r == GetPrefix(c) + c.delimiter + UnprefixOne(c, p)
  {
    assert p != [] ==> NonEmpty([p]) == [p];
    Path(c, [p])
  }

  /** The key of a directory's placeholder, `path(p, dir_keep_file)`. */
  function MarkerKey(c: Config, p: string): string
  {
    Path(c, [p, c.keepFile])
  }

  /** A string is its prefix followed by the rest. */
  lemma SplitAtPrefix(s: string, p: string)
    requires StartsWith(s, p)
    ensures s == p + s[|p|..]
  {
    assert s == s[..|p|] + s[|p|..];
  }

  /** A prefix of a prefix is a prefix. */
  lemma PrefixTrans(a: string, b: string, p: string)
    requires StartsWith(a, b) && StartsWith(b, p)
    ensures StartsWith(a, p)
  {
    assert a[..|p|] == a[..|b|][..|p|];
  }

  /** Every key, followed by the delimiter, starts with the root prefix and
      the delimiter. */
  lemma KeyUnderRoot(c: Config, p: string)
    ensures StartsWith(FullKey(c, p) + c.delimiter, GetPrefix(c) + c.delimiter)
  {
    var root, d := GetPrefix(c), c.delimiter;
    if p == [] {
      PrefixOfConcat(root + d, []);
    } else {
      var u := UnprefixOne(c, p);
      Assoc(root + d, u, d);
      PrefixOfConcat(root + d, u + d);
    }
  }

  /** Concatenation is associative. */
  lemma Assoc(x: string, y: string, z: string)
    ensures (x + y) + z == x + (y + z)
  {
  }

  /** A string starts with each of its prefixes. */
  lemma PrefixOfConcat(x: string, y: string)
    ensures StartsWith(x + y, x)
  {
    assert (x + y)[..|x|] == x;
  }

  /** unprefix strips the root and the delimiter from a key built of them. */
  lemma UnprefixUnderRoot(c: Config, rest: string)
    requires |c.delimiter| == 1
    ensures UnprefixOne(c, GetPrefix(c) + c.delimiter + rest) == rest
  {
    var k := GetPrefix(c) + c.delimiter + rest;
    assert k[..|GetPrefix(c) + c.delimiter|] == GetPrefix(c) + c.delimiter;
    assert k[|GetPrefix(c)| + 1..] == rest;
  }

  /** A key under the root whose unprefixed form is in normal form is the
      key of that form. */
  lemma EntryKey(c: Config, e: string, ch: string)
    requires |c.delimiter| == 1 && StartsWith(e, GetPrefix(c) + c.delimiter)
    requires ch == UnprefixOne(c, e) && ch != [] && UnprefixOne(c, ch) == ch
    ensures FullKey(c, ch) == e
  {
    SplitAtPrefix(e, GetPrefix(c) + c.delimiter);
  }

  /** A path in the normal form the file system hands out: unprefix leaves
      it alone. */
  predicate Normalized(c: Config, p: string)
  {
    UnprefixOne(c, p) == p
  }

  // ---------------------------------------------------------------------
  // Properties of the path algebra

  /** Stripping the root from a full key gives back the stripped path. */
  lemma UnprefixKey(c: Config, x: string)
    requires |c.delimiter| == 1
    ensures UnprefixOne(c, FullKey(c, x)) == UnprefixOne(c, x)
  {
    var root := GetPrefix(c);
    if x == [] {
      assert FullKey(c, x) == root;
      assert StripRoot(c, root) == [];
      if StartsWith(x, root) {
        assert root == [];
      }
    } else {
      var k := FullKey(c, x);
      assert k == root + c.delimiter + UnprefixOne(c, x);
      assert StartsWith(k, root + c.delimiter) by {
        assert k[..|root + c.delimiter|] == root + c.delimiter;
      }
      assert k[|root| + 1..] == UnprefixOne(c, x);
    }
  }

  /** fullKey(fullKey(x)) == fullKey(x) for every non-empty path. */
  lemma KeyIdempotent(c: Config, x: string)
    requires |c.delimiter| == 1
    requires x != []
    ensures FullKey(c, FullKey(c, x)) == FullKey(c, x)
  {
    var k := FullKey(c, x);
    assert |k| >= |GetPrefix(c)| + 1;
    assert k != [];
    UnprefixKey(c, x);
  }

  /** The exception to idempotence: `path("")` is the root prefix, but
      `path(prefix_)` is the root prefix followed by the delimiter. */
  lemma KeyNotIdempotentOnEmpty(c: Config)
    requires GetPrefix(c) != []
    ensures FullKey(c, []) == GetPrefix(c)
    ensures FullKey(c, FullKey(c, [])) == GetPrefix(c) + c.delimiter
  {
    var root := GetPrefix(c);
    assert StartsWith(root, root);
    assert StripRoot(c, root) == [];
    if StartsWith([], c.delimiter) {
      assert StripDelimiter(c, []) == [];
    }
  }

  /** Keys are injective on normalized paths. */
  lemma KeyInjective(c: Config, x: string, y: string)
    requires Normalized(c, x) && Normalized(c, y)
    requires FullKey(c, x) == FullKey(c, y)
    ensures x == y
  {
    var n := |GetPrefix(c) + c.delimiter|;
    if x != [] && y != [] {
      assert x == FullKey(c, x)[n..];
      assert y == FullKey(c, y)[n..];
    }
  }

  /** Without the normal form the key map is not injective: a path that
      starts with the root prefix has the same key as the path without it,
      so `nbx` and `x` share a key under bucket `nb` and no prefix. */
  lemma KeyCollision(c: Config, x: string)
    requires x != [] && GetPrefix(c) != []
    requires !StartsWith(x, GetPrefix(c)) && !StartsWith(x, c.delimiter)
    ensures GetPrefix(c) + x != x
    ensures FullKey(c, GetPrefix(c) + x) == FullKey(c, x)
  {
    var root := GetPrefix(c);
    assert StartsWith(root + x, root) by {
      assert (root + x)[..|root|] == root;
    }
    assert (root + x)[|root|..] == x;
  }

  /** The second kind of collision: a path with a leading one-character
      delimiter has the same key as the path without it (`/x` and `x`). */
  lemma DelimiterCollision(c: Config, x: string)
    requires |c.delimiter| == 1 && x != []
    requires !StartsWith(x, GetPrefix(c)) && !StartsWith(x, c.delimiter)
    requires !StartsWith(c.delimiter + x, GetPrefix(c))
    ensures c.delimiter + x != x
    ensures FullKey(c, c.delimiter + x) == FullKey(c, x)
  {
    var d := c.delimiter;
    assert |d + x| != |x|;
    assert StartsWith(d + x, d) by {
      assert (d + x)[..|d|] == d;
    }
    assert (d + x)[1..] == x;
  }

  /** The collision in the example configuration. */
  lemma KeyCollisionExample(c: Config, x: string, y: string)
    requires c.bucket == "nb" && c.prefix == [] && c.delimiter == "/"
    requires x == "nbx" && y == "x"
    ensures x != y && FullKey(c, x) == FullKey(c, y)
  {
    assert y[..1][0] == 'x';
    assert x == GetPrefix(c) + y;
    KeyCollision(c, y);
  }

  /** The key of a path that carries neither the root prefix nor a
      leading delimiter is the root prefix, the delimiter and the path. */
  lemma KeyOfPlainPath(c: Config, p: string)
    requires p != []
    requires !StartsWith(p, GetPrefix(c)) && !StartsWith(p, c.delimiter)
    ensures FullKey(c, p) == GetPrefix(c) + c.delimiter + p
  {
  }

  /** The worked example: bucket `nb`, prefix `proj`; the key of `a/b.ipynb`. */
  lemma KeyExample(c: Config, p: string)
    requires c == Config("nb", "proj", "/", ".s3keep") && p == "a/b.ipynb"
    ensures FullKey(c, p) == "nb" + "/" + "proj" + "/" + "a/b.ipynb"
  {
    assert p[..7][0] == 'a';
    assert p[..1][0] == 'a';
    KeyOfPlainPath(c, p);
  }

  /** The worked example the other way: unprefix of `nb/proj/a/b.ipynb`. */
  lemma UnprefixExample()
    ensures UnprefixOne(Config("nb", "proj", "/", ".s3keep"), "nb/proj/a/b.ipynb") == "a/b.ipynb"
  {
    var c, k := Config("nb", "proj", "/", ".s3keep"), "nb/proj/a/b.ipynb";
    assert GetPrefix(c) + c.delimiter == "nb/proj/";
    assert k[..8] == "nb/proj/";
    assert k[8..] == "a/b.ipynb";
  }

  /** Every key that path() builds begins with the configured bucket. */
  lemma KeyInBucket(c: Config, segs: seq<string>)
    ensures StartsWith(Path(c, segs), c.bucket)
  {
    var r, root := Path(c, segs), GetPrefix(c);
    if NonEmpty(segs) != [] {
      var rest := Join(c.delimiter, Unprefix(c, NonEmpty(segs)));
      Assoc(root, c.delimiter, rest);
      PrefixOfConcat(root, c.delimiter + rest);
    }
    PrefixTrans(r, root, c.bucket);
  }

  /** Join puts its first item, then the delimiter, in front of the rest. */
  lemma {:induction false} JoinCons(d: string, x: string, rest: seq<string>)
    requires rest != []
    ensures Join(d, [x] + rest) == x + d + Join(d, rest)
  {
    assert ([x] + rest)[1..] == rest;
  }

  /** filter(None, [p, q]) for a non-empty `q`. */
  lemma {:induction false} NonEmptyPair(p: string, q: string)
    requires q != []
    ensures NonEmpty([p, q]) == if p == [] then [q] else [p, q]
  {
    assert [p, q][1..] == [q];
    assert [q][1..] == [];
    assert NonEmpty([q]) == [q] + NonEmpty([]);
  }

  /** `delimiter.join([x, y])`. */
  lemma {:induction false} JoinPair(d: string, x: string, y: string)
    ensures Join(d, [x, y]) == x + d + y
  {
    assert [x, y][1..] == [y];
  }

  /** unprefix of a two-element list. */
  lemma UnprefixPair(c: Config, p: string, q: string)
    ensures Unprefix(c, [p, q]) == [UnprefixOne(c, p), UnprefixOne(c, q)]
  {
  }

  /** path(p, q) for two segments: the key of `p`, the delimiter, then `q`
      unprefixed; an empty `p` is dropped. */
  lemma PathTwo(c: Config, p: string, q: string)
    requires q != []
    ensures p != [] ==> Path(c, [p, q]) == FullKey(c, p) + c.delimiter + UnprefixOne(c, q)
    ensures p == [] ==> Path(c, [p, q]) == GetPrefix(c) + c.delimiter + UnprefixOne(c, q)
  {
    if p != [] {
      PathTwoBoth(c, p, q);
    } else {
      PathTwoSecond(c, q);
    }
  }

  lemma {:induction false} PathTwoBoth(c: Config, p: string, q: string)
    requires p != [] && q != []
    ensures Path(c, [p, q]) == FullKey(c, p) + c.delimiter + UnprefixOne(c, q)
  {
    var root, d := GetPrefix(c), c.delimiter;
    var up, uq := UnprefixOne(c, p), UnprefixOne(c, q);
    NonEmptyPair(p, q);
    UnprefixPair(c, p, q);
    JoinPair(d, up, uq);
    var rd := root + d;
    assert Path(c, [p, q]) == rd + (up + d + uq);
    Regroup(rd, up, d, uq);
  }

  /** Regrouping a four-part concatenation. */
  lemma Regroup(a: string, b: string, c: string, d: string)
    ensures a + (b + c + d) == a + b + c + d
  {
  }

  lemma {:induction false} PathTwoSecond(c: Config, q: string)
    requires q != []
    ensures Path(c, [[], q]) == GetPrefix(c) + c.delimiter + UnprefixOne(c, q)
  {
    NonEmptyPair([], q);
    assert Unprefix(c, [q]) == [UnprefixOne(c, q)];
  }

  /** The placeholder of a directory lies under the directory's key, so
      touching it makes the directory visible. */
  lemma {:induction false} MarkerUnderDirectory(c: Config, p: string)
    requires c.delimiter == "/"
    requires c.keepFile != []
    ensures StartsWith(MarkerKey(c, p), FullKey(c, p) + "/")
  {
    PathTwo(c, p, c.keepFile);
    var m, k := MarkerKey(c, p), FullKey(c, p);
    assert m == k + "/" + UnprefixOne(c, c.keepFile);
    assert m[..|k + "/"|] == k + "/";
  }

  // ---------------------------------------------------------------------
  // String helpers of the standard library

  /** `s.replace(pat, rep, 1)`: the first occurrence of `pat` is replaced
      by `rep`; an empty `pat` matches at the very start. */
  function ReplaceFirst(s: string, pat: string, rep: string): (r: string)
    ensures StartsWith(s, pat) ==> r == rep + s[|pat|..]
    decreases |s|
  {
    if pat == [] then rep + s
    else if StartsWith(s, pat) then rep + s[|pat|..]
    else if s == [] then []
    else [s[0]] + ReplaceFirst(s[1..], pat, rep)
  }

  /** `pat` occurs in `s` at index `i`. */
  predicate OccursAt(s: string, pat: string, i: int)
  {
    0 <= i && i + |pat| <= |s| && s[i..i + |pat|] == pat
  }

  /** An occurrence at 0 is a prefix. */
  lemma OccursAtStart(s: string, pat: string)
    ensures OccursAt(s, pat, 0) <==> StartsWith(s, pat)
  {
    if |pat| <= |s| { assert s[0..|pat|] == s[..|pat|]; }
  }

  /** Occurrences in `s[1..]` are the occurrences in `s`, one index earlier. */
  lemma OccursShift(s: string, pat: string, j: int)
    requires s != [] && 0 <= j
    ensures OccursAt(s, pat, j + 1) <==> OccursAt(s[1..], pat, j)
  {
    if j + |pat| <= |s[1..]| {
      assert s[1..][j..j + |pat|] == s[j + 1..j + 1 + |pat|];
    }
  }

  /** Where `pat` does not start `s`, replace(pat, rep, 1) keeps the first
      character and carries on with the rest. */
  lemma ReplaceFirstStep(s: string, pat: string, rep: string)
    requires pat != [] && s != [] && !StartsWith(s, pat)
    ensures ReplaceFirst(s, pat, rep) == [s[0]] + ReplaceFirst(s[1..], pat, rep)
  {
  }

  /** replace(pat, rep, 1) replaces the FIRST occurrence of a non-empty pattern. */
  lemma {:induction false} ReplaceFirstAt(s: string, pat: string, rep: string, i: int)
    requires pat != []
    requires OccursAt(s, pat, i)
    requires forall j :: 0 <= j < i ==> !OccursAt(s, pat, j)
    ensures ReplaceFirst(s, pat, rep) == s[..i] + rep + s[i + |pat|..]
    decreases i
  {
    OccursAtStart(s, pat);
    if i > 0 {
      var t := s[1..];
      OccursShift(s, pat, i - 1);
      forall j | 0 <= j < i - 1
        ensures !OccursAt(t, pat, j)
      {
        OccursShift(s, pat, j);
      }
      ReplaceFirstAt(t, pat, rep, i - 1);
      ReplaceFirstStep(s, pat, rep);
      var u := ReplaceFirst(t, pat, rep);
      assert u == t[..i - 1] + rep + t[i - 1 + |pat|..];
      assert s[..i] == [s[0]] + t[..i - 1];
      assert t[i - 1 + |pat|..] == s[i + |pat|..];
      Regroup([s[0]], t[..i - 1], rep, s[i + |pat|..]);
    } else {
      assert s[..i] + rep == rep;
    }
  }

  /** replace(pat, rep, 1) leaves a string without `pat` unchanged. */
  lemma {:induction false} ReplaceFirstAbsent(s: string, pat: string, rep: string)
    requires pat != []
    requires forall j :: 0 <= j <= |s| ==> !OccursAt(s, pat, j)
    ensures ReplaceFirst(s, pat, rep) == s
    decreases |s|
  {
    OccursAtStart(s, pat);
    if s != [] {
      var t := s[1..];
      forall j | 0 <= j <= |t|
        ensures !OccursAt(t, pat, j)
      {
        OccursShift(s, pat, j);
      }
      ReplaceFirstAbsent(t, pat, rep);
      assert s == [s[0]] + t;
    }
  }

  /** The index of the last `ch` in `s`, or -1 (`str.rfind`). */
  function LastIndex(s: string, ch: char): (i: int)
    ensures -1 <= i < |s|
    ensures i >= 0 ==> s[i] == ch
    ensures forall j :: i < j < |s| ==> s[j] != ch
  {
    if s == [] then -1
    else if s[|s| - 1] == ch then |s| - 1
    else LastIndex(s[..|s| - 1], ch)
  }

  /** An index that holds `ch`, with no `ch` after it, is the last index. */
  lemma {:induction false} LastIndexIs(s: string, ch: char, k: int)
    requires -1 <= k < |s|
    requires k >= 0 ==> s[k] == ch
    requires forall j :: k < j < |s| ==> s[j] != ch
    ensures LastIndex(s, ch) == k
  {
  }

  /** No `ch` in the slice after `k` means no index after `k` holds `ch`. */
  lemma {:induction false} NotInSuffix(s: string, ch: char, k: int)
    requires -1 <= k < |s|
    requires ch !in s[k + 1..]
    ensures forall j :: k < j < |s| ==> s[j] != ch
  {
    forall j | k < j < |s| ensures s[j] != ch {
      assert s[k + 1..][j - k - 1] == s[j];
    }
  }

  /** The extension `os.path.splitext(p)[1]` on POSIX: from the last dot of
      the last component, unless that component has only dots before it. */
  function Extension(p: string): (e: string)
    ensures EndsWith(p, e)
    ensures e != [] ==> e[0] == '.' && '/' !in e && '.' !in e[1..]
  {
    var sep := LastIndex(p, '/');
    var dot := LastIndex(p, '.');
    if dot > sep && exists j :: sep + 1 <= j < dot && p[j] != '.' then
      assert forall j :: dot <= j < |p| ==> p[j] != '/';
      assert forall ch :: ch in p[dot..] ==> ch != '/';
      assert forall ch :: ch in p[dot..][1..] ==> ch != '.' by {
        forall ch | ch in p[dot..][1..] ensures ch != '.' {
          var k :| 0 <= k < |p[dot..][1..]| && p[dot..][1..][k] == ch;
          assert p[dot..][1..][k] == p[dot + 1 + k];
        }
      }
      p[dot..]
    else []
  }

  /** The splitext rule for the last component (everything after the last
      "/"): it has an extension exactly when one of its dots comes after a
      character that is not a dot. */
  lemma ExtensionRule(p: string)
    ensures var sep := LastIndex(p, '/');
            Extension(p) != [] <==>
              exists i :: sep < i < |p| && p[i] == '.' && exists j :: sep < j < i && p[j] != '.'
  {
    var sep, dot := LastIndex(p, '/'), LastIndex(p, '.');
    if Extension(p) != [] {
      var j :| sep + 1 <= j < dot && p[j] != '.';
      assert sep < dot < |p| && p[dot] == '.';
    }
  }

  /** A notebook is a path whose extension is `.ipynb`. */
  predicate IsNotebookPath(p: string)
  {
    Extension(p) == ".ipynb"
  }

  /** The notebook test without splitext: the path ends in `.ipynb` and its
      last component has a character other than a dot before that suffix. */
  lemma NotebookSuffix(p: string)
    ensures IsNotebookPath(p) <==>
              EndsWith(p, ".ipynb") && exists j :: LastIndex(p, '/') < j < |p| - 6 && p[j] != '.'
  {
    if IsNotebookPath(p) {
      NotebookHasSuffix(p);
    }
    if EndsWith(p, ".ipynb") && exists j :: LastIndex(p, '/') < j < |p| - 6 && p[j] != '.' {
      var j :| LastIndex(p, '/') < j < |p| - 6 && p[j] != '.';
      SuffixMakesNotebook(p, j);
    }
  }

  /** A notebook path ends in `.ipynb`, after a character of its last
      component that is not a dot. */
  lemma NotebookHasSuffix(p: string)
    requires IsNotebookPath(p)
    ensures EndsWith(p, ".ipynb")
    ensures exists j :: LastIndex(p, '/') < j < |p| - 6 && p[j] != '.'
  {
    var sep, dot := LastIndex(p, '/'), LastIndex(p, '.');
    assert dot > sep && exists j :: sep + 1 <= j < dot && p[j] != '.';
    assert p[dot..] == Extension(p) == ".ipynb";
    assert dot == |p| - 6;
    var j :| sep + 1 <= j < dot && p[j] != '.';
    assert sep < j < |p| - 6 && p[j] != '.';
  }

  /** Conversely, such a path has the extension `.ipynb`. */
  lemma SuffixMakesNotebook(p: string, j: int)
    requires EndsWith(p, ".ipynb")
    requires LastIndex(p, '/') < j < |p| - 6 && p[j] != '.'
    ensures IsNotebookPath(p)
  {
    var k := |p| - 6;
    assert p[k..] == ".ipynb";
    assert p[k + 1..] == p[k..][1..] == "ipynb";
    NotInSuffix(p, '.', k);
    LastIndexIs(p, '.', k);
  }

  /** A path whose last component has a name before `.ipynb` is a notebook. */
  lemma NotebookExample()
    ensures IsNotebookPath("a/b.ipynb")
  {
    assert "a/b.ipynb"[2..] == "b.ipynb";
    NotInSuffix("a/b.ipynb", '/', 1);
    LastIndexIs("a/b.ipynb", '/', 1);
    assert "a/b.ipynb"[4..] == "ipynb";
    NotInSuffix("a/b.ipynb", '.', 3);
    LastIndexIs("a/b.ipynb", '.', 3);
    assert "a/b.ipynb"[2] != '.';
    assert "a/b.ipynb"[3..] == ".ipynb";
  }

  /** A bare `.ipynb` is not a notebook: splitext sees no extension there. */
  lemma DotFileNotNotebook()
    ensures !IsNotebookPath(".ipynb")
  {
    NotInSuffix(".ipynb", '/', -1);
    LastIndexIs(".ipynb", '/', -1);
    assert ".ipynb"[1..] == "ipynb";
    NotInSuffix(".ipynb", '.', 0);
    LastIndexIs(".ipynb", '.', 0);
  }

  /** The same holds for a bare `.ipynb` inside a directory. */
  lemma HiddenFileNotNotebook()
    ensures !IsNotebookPath("a/.ipynb")
  {
    assert "a/.ipynb"[2..] == ".ipynb";
    NotInSuffix("a/.ipynb", '/', 1);
    LastIndexIs("a/.ipynb", '/', 1);
    assert "a/.ipynb"[3..] == "ipynb";
    NotInSuffix("a/.ipynb", '.', 2);
    LastIndexIs("a/.ipynb", '.', 2);
  }
}

=== FILE: s3_fs.dfy ===
/** S3FS (s3_fs.py): a file system over a flat, versioned key store. The
    pure steps of a read and a write are functions; the class holds the
    mutable parts, the store and the table of pinned versions
    (`requested_version_id_lookup`), and its methods change them the way
    the source does. */
module S3Fs {
  import opened Types
  import opened PathAlgebra
  import opened ObjectStore
  import opened Notebook

  /** The format a read reports alongside the content. */
  datatype Format = Text | Base64

  datatype ReadResult = ReadResult(content: string, format: Format)

  /** load_latest (s3_fs.py:202-212): the latest bytes, and for a notebook
      the document re-serialised with its metadata decorated. */
  function LoadLatest(codecs: Codecs, s: Store, key: Key, notebook: bool,
                      history: seq<VersionRecord>): (r: Result<Bytes>)
    requires Valid(s) && key in s.objects
    ensures !notebook ==> r == Ok(s.objects[key])
    ensures notebook && codecs.parseNotebook(s.objects[key]).None? ==> r == Err(NotNotebookJson(key))
    ensures r.Err? ==> r.error == NotNotebookJson(key) || r.error == EncodingError(key)
    ensures notebook && JsonRoundTrip(codecs) && codecs.parseNotebook(s.objects[key]).Some? ==>
              r.Ok? && codecs.parseNotebook(r.value) ==
                Some(DecorateLatest(codecs.parseNotebook(s.objects[key]).value, history, s.latest[key]))
  {
    var content := s.objects[key];
    if !notebook then Ok(content)
    else
      match codecs.parseNotebook(content)
      case None => Err(NotNotebookJson(key))
      case Some(n) =>
        var out := codecs.utf8Encode(codecs.dumpNotebook(DecorateLatest(n, history, s.latest[key])));
        if out.Some? then Ok(out.value) else Err(EncodingError(key))
  }

  /** The guarded part of a pinned read (s3_fs.py:218-224): parse the pinned
      version, decorate it and serialise it again. `None` is the exception
      that sends the read back to the latest version. */
  function DecoratedPin(codecs: Codecs, pinned: Bytes, history: seq<VersionRecord>,
                        pin: VersionId, latestId: VersionId): (r: Option<Bytes>)
    ensures codecs.parseNotebook(pinned).None? ==> r.None?
    ensures JsonRoundTrip(codecs) && codecs.parseNotebook(pinned).Some? ==>
              r.Some? && codecs.parseNotebook(r.value) ==
                Some(DecoratePinned(codecs.parseNotebook(pinned).value, history, pin, latestId))
  {
    match codecs.parseNotebook(pinned)
    case None => None
    case Some(n) => codecs.utf8Encode(codecs.dumpNotebook(DecoratePinned(n, history, pin, latestId)))
  }

  /** What a read of a file returns before format negotiation, and whether
      it empties the pin table (s3_fs.py:195-230). */
  datatype Selection = Selection(content: Result<Bytes>, clearPins: bool)

  /** The pin recorded for a path, None when there is none. */
  function PinOf(pins: map<string, Option<VersionId>>, path: string): Option<VersionId>
  {
    if path in pins then pins[path] else None
  }

  /** Version selection of a read of an existing file. */
  function Select(c: Config, codecs: Codecs, s: Store, pins: map<string, Option<VersionId>>,
                  path: string, history: seq<VersionRecord>): (sel: Selection)
    requires Valid(s) && FullKey(c, path) in s.objects
    ensures sel.clearPins ==> Truthy(PinOf(pins, path)) && IsNotebookPath(path)
    ensures sel.content.Err? ==>
              || sel.content.error.NoSuchVersion?
              || sel.content.error == NotNotebookJson(FullKey(c, path))
              || sel.content.error == EncodingError(FullKey(c, path))
    ensures sel.content.Err? && sel.content.error.NoSuchVersion? ==>
              && Truthy(PinOf(pins, path)) && IsNotebookPath(path)
              && sel.content.error == NoSuchVersion(FullKey(c, path), PinOf(pins, path).value)
              && (FullKey(c, path), PinOf(pins, path).value) !in s.versions
    ensures Truthy(PinOf(pins, path)) && IsNotebookPath(path) &&
            (FullKey(c, path), PinOf(pins, path).value) !in s.versions ==>
              sel == Selection(Err(NoSuchVersion(FullKey(c, path), PinOf(pins, path).value)), false)
  {
    var key := FullKey(c, path);
    var pin := PinOf(pins, path);
    var notebook := IsNotebookPath(path);
    if Truthy(pin) && notebook then
      if (key, pin.value) !in s.versions then Selection(Err(NoSuchVersion(key, pin.value)), false)
      else
        match DecoratedPin(codecs, s.versions[(key, pin.value)], history, pin.value, s.latest[key])
        case Some(b) => Selection(Ok(b), false)
        case None => Selection(LoadLatest(codecs, s, key, notebook, history), true)
    else Selection(LoadLatest(codecs, s, key, notebook, history), false)
  }

  /** Format negotiation (s3_fs.py:232-242). */
  function Negotiate(codecs: Codecs, content: Bytes, format: Option<string>, key: Key): (r: Result<ReadResult>)
    ensures r.Err? <==> format == Some("text") && codecs.utf8Decode(content).None?
    ensures r.Err? ==> r.error == NotUtf8(key)
    ensures r.Ok? && r.value.format == Text <==>
              (format == None || format == Some("text")) && codecs.utf8Decode(content).Some?
    ensures r.Ok? && r.value.format == Text ==> codecs.utf8Decode(content) == Some(r.value.content)
    ensures r.Ok? && r.value.format == Base64 ==> r.value.content == codecs.b64Encode(content)
  {
    if format == None || format == Some("text") then
      match codecs.utf8Decode(content)
      case Some(text) => Ok(ReadResult(text, Text))
      case None =>
        if format == Some("text") then Err(NotUtf8(key))
        else Ok(ReadResult(codecs.b64Encode(content), Base64))
    else Ok(ReadResult(codecs.b64Encode(content), Base64))
  }

  /** A read's result once the content is selected. */
  function Finish(codecs: Codecs, content: Result<Bytes>, format: Option<string>, key: Key): (r: Result<ReadResult>)
    ensures r.Ok? ==> content.Ok?
    ensures content.Err? ==> r == Err(content.error)
    ensures content.Ok? && r.Err? ==> format == Some("text") && r.error == NotUtf8(key)
    ensures content.Ok? && format == Some("base64") ==> r == Ok(ReadResult(codecs.b64Encode(content.value), Base64))
  {
    if content.Err? then Err(content.error) else Negotiate(codecs, content.value, format, key)
  }

  /** Validation and decoding of the content of a write (s3_fs.py:260-274). */
  function EncodeForWrite(codecs: Codecs, content: string, format: Option<string>, key: Key): (r: Result<Bytes>)
    ensures format != Some("text") && format != Some("base64") ==> r == Err(BadFormat)
    ensures format == Some("text") ==>
              (r.Ok? <==> codecs.utf8Encode(content).Some?) &&
              (r.Ok? ==> codecs.utf8Encode(content) == Some(r.value))
    ensures format == Some("base64") ==>
              (r.Ok? <==> codecs.b64Decode(content).Some?) &&
              (r.Ok? ==> codecs.b64Decode(content) == Some(r.value))
    ensures r.Err? ==> r.error == BadFormat || r.error == EncodingError(key)
  {
    if format != Some("text") && format != Some("base64") then Err(BadFormat)
    else
      var decoded := if format == Some("text") then codecs.utf8Encode(content) else codecs.b64Decode(content);
      if decoded.Some? then Ok(decoded.value) else Err(EncodingError(key))
  }

  /** The key a write lands on: `path(unprefix(p))`. */
  function WriteKey(c: Config, path: string): Key
  {
    FullKey(c, UnprefixOne(c, path))
  }

  /** The paths `ls` hands out for a directory: its entries, unprefixed. */
  function Children(c: Config, s: Store, path: string): set<string>
  {
    set e | e in Listing(s, FullKey(c, path)) :: UnprefixOne(c, e)
  }

  /** The key a directory copy writes an entry to: the key of the entry's
      path with its first occurrence of the old path replaced by the new. */
  function Target(c: Config, child: string, oldPath: string, newPath: string): Key
  {
    FullKey(c, ReplaceFirst(child, oldPath, newPath))
  }

  /** A directory copy whose entries do not interfere with each other: every
      entry is a plain file, no entry's target is another entry's key or
      lies under it, and distinct entries have distinct targets. */
  ghost predicate FlatCopy(c: Config, s: Store, kids: set<string>, oldPath: string, newPath: string)
  {
    && PlainEntries(c, s, kids)
    && TargetsApart(c, kids, oldPath, newPath)
    && TargetsDistinct(c, kids, oldPath, newPath)
  }

  /** Every entry is a stored file and not a directory. */
  ghost predicate PlainEntries(c: Config, s: Store, kids: set<string>)
  {
    forall ch :: ch in kids ==> FullKey(c, ch) in s.objects && !IsDirKey(s, FullKey(c, ch))
  }

  /** No entry's target is an entry's key or lies under it. */
  ghost predicate TargetsApart(c: Config, kids: set<string>, oldPath: string, newPath: string)
  {
    forall ch1, ch2 :: ch1 in kids && ch2 in kids ==>
      Target(c, ch1, oldPath, newPath) != FullKey(c, ch2) &&
      !StartsWith(Target(c, ch1, oldPath, newPath), FullKey(c, ch2) + "/")
  }

  /** Distinct entries have distinct targets. */
  ghost predicate TargetsDistinct(c: Config, kids: set<string>, oldPath: string, newPath: string)
  {
    forall ch1, ch2 :: (ch1 in kids && ch2 in kids &&
      Target(c, ch1, oldPath, newPath) == Target(c, ch2, oldPath, newPath)) ==> ch1 == ch2
  }

  /** Entries still to be copied: their keys hold the bytes they held in
      `s0` and are plain files. */
  ghost predicate Pending(c: Config, s0: Store, s: Store, todo: set<string>)
  {
    forall ch :: ch in todo ==>
      && FullKey(c, ch) in s0.objects && FullKey(c, ch) in s.objects
      && s.objects[FullKey(c, ch)] == s0.objects[FullKey(c, ch)]
      && !IsDirKey(s, FullKey(c, ch))
  }

  /** Every copied entry's target, other than `except`, holds the bytes the
      entry held in `s0`. */
  ghost predicate Copied(c: Config, s0: Store, s: Store, done: set<string>, oldPath: string, newPath: string, except: Key)
  {
    forall ch :: ch in done && Target(c, ch, oldPath, newPath) != except ==>
      && FullKey(c, ch) in s0.objects && Target(c, ch, oldPath, newPath) in s.objects
      && s.objects[Target(c, ch, oldPath, newPath)] == s0.objects[FullKey(c, ch)]
  }

  /** Every key other than `except` that `s` adds to `s0` or changes is the
      target of a copied entry. */
  ghost predicate OnlyTargets(c: Config, s0: Store, s: Store, done: set<string>, oldPath: string, newPath: string, except: Key)
  {
    forall k :: (k in s.objects && k != except && (k !in s0.objects || s.objects[k] != s0.objects[k])) ==>
      exists ch :: ch in done && k == Target(c, ch, oldPath, newPath)
  }

  class S3FS {
    const config: Config
    const codecs: Codecs
    /** The bucket. */
    var store: Store
    /** `requested_version_id_lookup`: path to pinned version id. */
    var pins: map<string, Option<VersionId>>

    ghost predicate Valid()
      reads this
    {
      ObjectStore.Valid(store)
    }

    /** `__init__` and `init` (s3_fs.py:71-76, 101-105): an empty pin table,
        and the root directory's placeholder touched in the bucket. */
    constructor (config: Config, codecs: Codecs, bucket: Store)
      requires ObjectStore.Valid(bucket)
      ensures Valid()
      ensures this.config == config && this.codecs == codecs
      ensures pins == map[]
      ensures store == Put(bucket, MarkerKey(config, []), [])
    {
      this.config := config;
      this.codecs := codecs;
      store := bucket;
      pins := map[];
      new;
      Mkdir([]);
    }

    predicate IsFile(path: string)
      reads this
    {
      IsFileKey(store, FullKey(config, path))
    }

    predicate IsDir(path: string)
      reads this
    {
      IsDirKey(store, FullKey(config, path))
    }

    /** `ls(path)` (s3_fs.py:116-120): the directory's entries, unprefixed. */
    function Ls(path: string): (r: set<string>)
      reads this
    {
      Children(config, store, path)
    }

    /** read (s3_fs.py:193-242). */
    method Read(path: string, format: Option<string>, history: seq<VersionRecord>) returns (r: Result<ReadResult>)
      requires Valid()
      modifies this`pins
      ensures Valid()
      ensures !IsFile(path) ==> r == Err(NoSuchFile(FullKey(config, path))) && pins == old(pins)
      ensures IsFile(path) ==>
                var sel := Select(config, codecs, store, old(pins), path, history);
                && pins == (if sel.clearPins then map[] else old(pins))
                && r == Finish(codecs, sel.content, format, FullKey(config, path))
    {
      var key := FullKey(config, path);
      var requested: Option<VersionId> := None;
      if path in pins {
        requested := pins[path];
      }
      if !IsFileKey(store, key) {
        return Err(NoSuchFile(key));
      }
      var notebook := IsNotebookPath(path);
      var content: Bytes;
      if Truthy(requested) && notebook {
        var id := requested.value;
        if (key, id) !in store.versions {
          return Err(NoSuchVersion(key, id));
        }
        var decorated := DecoratedPin(codecs, store.versions[(key, id)], history, id, store.latest[key]);
        if decorated.Some? {
          content := decorated.value;
        } else {
          pins := map[];
          var latest := LoadLatest(codecs, store, key, notebook, history);
          if latest.Err? {
            return Err(latest.error);
          }
          content := latest.value;
        }
      } else {
        var latest := LoadLatest(codecs, store, key, notebook, history);
        if latest.Err? {
          return Err(latest.error);
        }
        content := latest.value;
      }
      r := Negotiate(codecs, content, format, key);
    }

    /** write (s3_fs.py:257-276): nothing is stored unless the format and
        the content check out. */
    method Write(path: string, content: string, format: Option<string>) returns (r: Outcome)
      requires Valid()
      modifies this`store
      ensures Valid()
      ensures var enc := EncodeForWrite(codecs, content, format, WriteKey(config, path));
              && (enc.Ok? ==> r == Pass && store == Put(old(store), WriteKey(config, path), enc.value))
              && (enc.Err? ==> r == Fail(enc.error) && store == old(store))
    {
      var key := WriteKey(config, path);
      var enc := EncodeForWrite(codecs, content, format, key);
      if enc.Err? {
        return Fail(enc.error);
      }
      store := Put(store, key, enc.value);
      r := Pass;
    }

    /** writenotebook (s3_fs.py:278-282): the UTF-8 bytes of the text. */
    method WriteNotebook(path: string, content: string) returns (r: Outcome)
      requires Valid()
      modifies this`store
      ensures Valid()
      ensures var enc := codecs.utf8Encode(content);
              && (enc.Some? ==> r == Pass && store == Put(old(store), WriteKey(config, path), enc.value))
              && (enc.None? ==> r == Fail(EncodingError(WriteKey(config, path))) && store == old(store))
    {
      var key := WriteKey(config, path);
      var enc := codecs.utf8Encode(content);
      if enc.None? {
        return Fail(EncodingError(key));
      }
      store := Put(store, key, enc.value);
      r := Pass;
    }

    /** mkdir (s3_fs.py:168-171): touch the directory's placeholder. */
    method Mkdir(path: string)
      requires Valid()
      modifies this`store
      ensures Valid()
      ensures store == Put(old(store), MarkerKey(config, path), [])
      ensures config.delimiter == "/" && config.keepFile != [] ==> IsDir(path)
    {
      store := Put(store, MarkerKey(config, path), []);
      if config.delimiter == "/" && config.keepFile != [] {
        MarkerUnderDirectory(config, path);
        assert StartsWith(MarkerKey(config, path), FullKey(config, path) + "/");
      }
    }

    /** rm (s3_fs.py:157-166): one key for a file, everything under the key
        and a delimiter for a directory, nothing otherwise. */
    method Rm(path: string)
      requires Valid()
      modifies this`store
      ensures Valid()
      ensures var key := FullKey(config, path);
              store == if old(IsFile(path)) then Delete(old(store), {key})
                       else if old(IsDir(path)) then Delete(old(store), KeysUnder(old(store), key + config.delimiter))
                       else old(store)
      ensures old(IsFile(path)) ==> !IsFile(path)
      ensures !old(IsFile(path)) && old(IsDir(path)) ==>
                forall k :: k in store.objects ==> !StartsWith(k, FullKey(config, path) + config.delimiter)
    {
      var key := FullKey(config, path);
      if IsFileKey(store, key) {
        store := Delete(store, {key});
      } else if IsDirKey(store, key) {
        store := Delete(store, KeysUnder(store, key + config.delimiter));
      }
    }

    /** cp (s3_fs.py:143-155). A directory is copied entry by entry (see
        `CopyChildren`) and then the new directory's placeholder is touched;
        a file is one server-side copy; anything else is left alone. The
        recursion into sub-directories is bounded by `fuel`. */
    method Cp(oldPath: string, newPath: string, fuel: nat)
      requires Valid()
      modifies this`store
      ensures Valid()
      ensures old(store.objects).Keys <= store.objects.Keys
      ensures old(IsDir(oldPath)) ==> MarkerKey(config, newPath) in store.objects
      ensures old(IsDir(oldPath)) && fuel > 0 && old(FlatCopy(config, store, Ls(oldPath), oldPath, newPath)) ==>
                && Copied(config, old(store), store, old(Ls(oldPath)), oldPath, newPath, MarkerKey(config, newPath))
                && OnlyTargets(config, old(store), store, old(Ls(oldPath)), oldPath, newPath, MarkerKey(config, newPath))
      ensures !old(IsDir(oldPath)) && old(IsFile(oldPath)) ==>
                store == Copy(old(store), FullKey(config, oldPath), FullKey(config, newPath))
      ensures !old(IsDir(oldPath)) && !old(IsFile(oldPath)) ==> store == old(store)
      decreases fuel, 1
    {
      var oldKey, newKey := FullKey(config, oldPath), FullKey(config, newPath);
      if IsDirKey(store, oldKey) {
        ghost var marker := MarkerKey(config, newPath);
        ghost var kids := Ls(oldPath);
        ghost var flat := fuel > 0 && FlatCopy(config, store, kids, oldPath, newPath);
        if fuel > 0 {
          CopyChildren(oldPath, newPath, fuel);
        }
        ghost var before := store;
        Mkdir(newPath);
        if flat {
          MarkerStep(config, old(store), before, store, kids, oldPath, newPath, marker);
        }
      } else if IsFileKey(store, oldKey) {
        store := Copy(store, oldKey, newKey);
      }
    }

    /** The loop of cp over a directory's entries (s3_fs.py:147-152): each
        entry is copied to its path with the first occurrence of the old
        directory's path replaced by the new one. When the entries do not
        interfere, every target ends up with its entry's bytes and nothing
        but targets changes. */
    method CopyChildren(oldPath: string, newPath: string, fuel: nat)
      requires Valid() && fuel > 0
      modifies this`store
      ensures Valid()
      ensures old(store.objects).Keys <= store.objects.Keys
      ensures old(FlatCopy(config, store, Ls(oldPath), oldPath, newPath)) ==>
                && Copied(config, old(store), store, old(Ls(oldPath)), oldPath, newPath, MarkerKey(config, newPath))
                && OnlyTargets(config, old(store), store, old(Ls(oldPath)), oldPath, newPath, MarkerKey(config, newPath))
      decreases fuel, 0
    {
      ghost var marker := MarkerKey(config, newPath);
      var todo := Ls(oldPath);
      ghost var kids := todo;
      ghost var flat := FlatCopy(config, store, kids, oldPath, newPath);
      while todo != {}
        invariant Valid()
        invariant old(store.objects).Keys <= store.objects.Keys
        invariant todo <= kids
        invariant flat ==> Pending(config, old(store), store, todo)
        invariant flat ==> Copied(config, old(store), store, kids - todo, oldPath, newPath, marker)
        invariant flat ==> OnlyTargets(config, old(store), store, kids - todo, oldPath, newPath, marker)
        decreases todo
      {
        var child :| child in todo;
        ghost var prev := todo;
        todo := todo - {child};
        ghost var before := store;
        ghost var src := FullKey(config, child);
        ghost var pendingChild := flat && src in before.objects && !IsDirKey(before, src);
        Cp(child, ReplaceFirst(child, oldPath, newPath), fuel - 1);
        if flat {
          assert pendingChild;
          assert store == Copy(before, src, Target(config, child, oldPath, newPath));
          CopyStep(config, old(store), before, store, kids, prev, todo, child, oldPath, newPath, marker);
        }
      }
    }

    /** mv (s3_fs.py:138-141): a copy followed by a removal of the source.
        For a file this moves the bytes, and a move onto its own key
        deletes the file; afterwards the old path is never a file. */
    method Mv(oldPath: string, newPath: string, fuel: nat)
      requires Valid()
      modifies this`store
      ensures Valid()
      ensures !IsFile(oldPath)
      ensures !old(IsDir(oldPath)) && old(IsFile(oldPath)) ==>
                store.objects == old(store.objects)[FullKey(config, newPath) := old(store.objects)[FullKey(config, oldPath)]]
                                   - {FullKey(config, oldPath)}
      ensures !old(IsDir(oldPath)) && !old(IsFile(oldPath)) ==> store == old(store)
      ensures old(IsDir(oldPath)) && !old(IsFile(oldPath)) && fuel > 0 &&
              old(FlatCopy(config, store, Ls(oldPath), oldPath, newPath)) &&
              FullKey(config, oldPath) != MarkerKey(config, newPath) &&
              (forall ch :: ch in old(Ls(oldPath)) ==> Target(config, ch, oldPath, newPath) != FullKey(config, oldPath)) ==>
                && (forall k :: k in store.objects ==> !StartsWith(k, FullKey(config, oldPath) + config.delimiter))
                && (forall k :: k in old(store.objects) && !StartsWith(k, FullKey(config, oldPath) + config.delimiter) ==>
                      k in store.objects)
                && OnlyTargets(config, old(store), store, old(Ls(oldPath)), oldPath, newPath, MarkerKey(config, newPath))
                && (!StartsWith(MarkerKey(config, newPath), FullKey(config, oldPath) + config.delimiter) ==>
                      MarkerKey(config, newPath) in store.objects)
                && (forall ch :: ch in old(Ls(oldPath)) && Target(config, ch, oldPath, newPath) != MarkerKey(config, newPath) &&
                                 !StartsWith(Target(config, ch, oldPath, newPath), FullKey(config, oldPath) + config.delimiter) ==>
                      Target(config, ch, oldPath, newPath) in store.objects &&
                      store.objects[Target(config, ch, oldPath, newPath)] == old(store.objects[FullKey(config, ch)]))
    {
      ghost var oldKey := FullKey(config, oldPath);
      Cp(oldPath, newPath, fuel);
      ghost var mid := store;
      if old(IsDirKey(store, oldKey)) {
        var w :| w in old(store.objects) && StartsWith(w, oldKey + "/");
        assert w in store.objects;
      }
      Rm(oldPath);
    }
  }

  /** One step of a directory copy: the entry `child` has been copied onto
      its target, and the loop's facts carry over to the remaining entries. */
  lemma CopyStep(c: Config, s0: Store, before: Store, after: Store, kids: set<string>, prev: set<string>,
                 todo: set<string>, child: string, oldPath: string, newPath: string, except: Key)
    requires FlatCopy(c, s0, kids, oldPath, newPath)
    requires child in prev && prev <= kids && todo == prev - {child}
    requires Pending(c, s0, before, prev)
    requires Copied(c, s0, before, kids - prev, oldPath, newPath, except)
    requires OnlyTargets(c, s0, before, kids - prev, oldPath, newPath, except)
    requires after == Copy(before, FullKey(c, child), Target(c, child, oldPath, newPath))
    ensures Pending(c, s0, after, todo)
    ensures Copied(c, s0, after, kids - todo, oldPath, newPath, except)
    ensures OnlyTargets(c, s0, after, kids - todo, oldPath, newPath, except)
  {
    assert prev == todo + {child};
    var t := Target(c, child, oldPath, newPath);
    var b := s0.objects[FullKey(c, child)];
    assert after.objects == before.objects[t := b];
    PendingStep(c, s0, before, after, kids, todo, child, oldPath, newPath, t, b);
    CopiedStep(c, s0, before, after, kids, todo, child, oldPath, newPath, except, t, b);
    OnlyTargetsStep(c, s0, before, after, kids, todo, child, oldPath, newPath, except, t, b);
  }

  lemma PendingStep(c: Config, s0: Store, before: Store, after: Store, kids: set<string>, todo: set<string>,
                    child: string, oldPath: string, newPath: string, t: Key, b: Bytes)
    requires TargetsApart(c, kids, oldPath, newPath)
    requires child in kids && todo <= kids && t == Target(c, child, oldPath, newPath)
    requires Pending(c, s0, before, todo)
    requires after == Put(before, t, b)
    ensures Pending(c, s0, after, todo)
  {
    forall ch | ch in todo
      ensures FullKey(c, ch) in after.objects && after.objects[FullKey(c, ch)] == s0.objects[FullKey(c, ch)]
      ensures !IsDirKey(after, FullKey(c, ch))
    {
      assert t != FullKey(c, ch) && !StartsWith(t, FullKey(c, ch) + "/");
      NotDirAfterPut(before, t, b, FullKey(c, ch));
    }
  }

  lemma CopiedStep(c: Config, s0: Store, before: Store, after: Store, kids: set<string>, todo: set<string>,
                   child: string, oldPath: string, newPath: string, except: Key, t: Key, b: Bytes)
    requires TargetsDistinct(c, kids, oldPath, newPath)
    requires child in kids && todo <= kids && child !in todo && t == Target(c, child, oldPath, newPath)
    requires FullKey(c, child) in s0.objects && b == s0.objects[FullKey(c, child)]
    requires Copied(c, s0, before, kids - (todo + {child}), oldPath, newPath, except)
    requires after.objects == before.objects[t := b]
    ensures Copied(c, s0, after, kids - todo, oldPath, newPath, except)
  {
    forall ch | ch in kids - todo && Target(c, ch, oldPath, newPath) != except
      ensures FullKey(c, ch) in s0.objects && Target(c, ch, oldPath, newPath) in after.objects
      ensures after.objects[Target(c, ch, oldPath, newPath)] == s0.objects[FullKey(c, ch)]
    {
      CopiedEntry(c, s0, before, after, kids, todo, child, ch, oldPath, newPath, except, t, b);
    }
  }

  /** One entry after a copy step: the entry just copied, or one copied
      before whose target the step did not touch. */
  lemma CopiedEntry(c: Config, s0: Store, before: Store, after: Store, kids: set<string>, todo: set<string>,
                    child: string, ch: string, oldPath: string, newPath: string, except: Key, t: Key, b: Bytes)
    requires TargetsDistinct(c, kids, oldPath, newPath)
    requires child in kids && child !in todo && t == Target(c, child, oldPath, newPath)
    requires FullKey(c, child) in s0.objects && b == s0.objects[FullKey(c, child)]
    requires Copied(c, s0, before, kids - (todo + {child}), oldPath, newPath, except)
    requires after.objects == before.objects[t := b]
    requires ch in kids - todo && Target(c, ch, oldPath, newPath) != except
    ensures FullKey(c, ch) in s0.objects && Target(c, ch, oldPath, newPath) in after.objects
    ensures after.objects[Target(c, ch, oldPath, newPath)] == s0.objects[FullKey(c, ch)]
  {
    var tc := Target(c, ch, oldPath, newPath);
    if ch == child {
      assert tc == t && after.objects[t] == b;
    } else {
      assert ch in kids - (todo + {child});
      assert tc in before.objects && before.objects[tc] == s0.objects[FullKey(c, ch)];
      assert tc != t;
      assert after.objects[tc] == before.objects[tc];
    }
  }

  lemma OnlyTargetsStep(c: Config, s0: Store, before: Store, after: Store, kids: set<string>, todo: set<string>,
                        child: string, oldPath: string, newPath: string, except: Key, t: Key, b: Bytes)
    requires child in kids && child !in todo && t == Target(c, child, oldPath, newPath)
    requires OnlyTargets(c, s0, before, kids - (todo + {child}), oldPath, newPath, except)
    requires after.objects == before.objects[t := b]
    ensures OnlyTargets(c, s0, after, kids - todo, oldPath, newPath, except)
  {
    forall k | k in after.objects && k != except && (k !in s0.objects || after.objects[k] != s0.objects[k])
      ensures exists ch :: ch in kids - todo && k == Target(c, ch, oldPath, newPath)
    {
      if k == t {
        assert child in kids - todo;
      } else {
        assert k in before.objects && before.objects[k] == after.objects[k];
        var ch :| ch in kids - (todo + {child}) && k == Target(c, ch, oldPath, newPath);
        assert ch in kids - todo;
      }
    }
  }

  /** The directory marker written at the end of a copy leaves every other
      key as the loop left it. */
  lemma MarkerStep(c: Config, s0: Store, before: Store, after: Store, kids: set<string>,
                   oldPath: string, newPath: string, marker: Key)
    requires Copied(c, s0, before, kids, oldPath, newPath, marker)
    requires OnlyTargets(c, s0, before, kids, oldPath, newPath, marker)
    requires after.objects == before.objects[marker := []]
    ensures Copied(c, s0, after, kids, oldPath, newPath, marker)
    ensures OnlyTargets(c, s0, after, kids, oldPath, newPath, marker)
  {
    forall k | k in after.objects && k != marker && (k !in s0.objects || after.objects[k] != s0.objects[k])
      ensures exists ch :: ch in kids && k == Target(c, ch, oldPath, newPath)
    {
      assert k in before.objects && before.objects[k] == after.objects[k];
    }
  }

  // -----------------------------------------------------------------------
  // Properties of listings

  /** A child `ls` hands out, when unprefix leaves it alone, addresses the
      very key the store listed: `path(child)` is the listing entry, and it
      is a file or a directory. This is what lets `cp` recurse on the
      children it lists. */
  lemma ListedChildKey(c: Config, s: Store, path: string, ch: string)
    requires c.delimiter == "/"
    requires ch in Children(c, s, path) && ch != [] && Normalized(c, ch)
    ensures FullKey(c, ch) in Listing(s, FullKey(c, path))
    ensures IsFileKey(s, FullKey(c, ch)) || IsDirKey(s, FullKey(c, ch))
  {
    var dir := FullKey(c, path);
    var e :| e in Listing(s, dir) && ch == UnprefixOne(c, e);
    KeyUnderRoot(c, path);
    PrefixTrans(e, dir + "/", GetPrefix(c) + "/");
    EntryKey(c, e, ch);
    ListedEntryKind(s, dir, e);
  }

  /** The directory-copy guarantees of `Cp` and `Mv` are not vacuous: under
      bucket `nb`, a store holding only `nb/a/x` lists `a/x` in `a`, and
      copying `a` to `b` is a flat copy onto `nb/b/x`. */
  lemma FlatCopyExample(c: Config, s: Store)
    requires c == Config("nb", "", "/", ".s3keep")
    requires s.objects == map["nb/a/x" := []]
    ensures Children(c, s, "a") == {"a/x"}
    ensures FlatCopy(c, s, Children(c, s, "a"), "a", "b")
    ensures Target(c, "a/x", "a", "b") == "nb/b/x"
  {
    ExampleTarget(c);
    assert !IsDirKey(s, "nb/a/x") by {
      assert forall w :: w in s.objects ==> w == "nb/a/x";
    }
    FlatCopyOfOne(c, s, "a/x", "a", "b");
    ExampleListing(c, s);
  }

  /** The new directory's tree need not hold a copy's targets: under bucket
      `nb`, copying `a` onto `nb` gives the new directory the key `nb/`, and
      the entry `a/x` the target `nb/x`, which is not under `nb/` + "/". */
  lemma TargetOutsideNewKey(c: Config)
    requires c == Config("nb", "", "/", ".s3keep")
    ensures FullKey(c, "nb") == "nb/"
    ensures Target(c, "a/x", "a", "nb") == "nb/x"
    ensures !StartsWith(Target(c, "a/x", "a", "nb"), FullKey(c, "nb") + "/")
  {
    var t := "nb/x";
    assert |t| == |"nb/" + "/"| && t[3] != ("nb/" + "/")[3];
    KeyOfBucketName(c);
    TargetIntoBucketName(c);
  }

  /** That copy is a flat copy of a store holding only `nb/a/x`, so the
      directory guarantees of `Cp` apply to it. */
  lemma FlatOntoBucketName(c: Config, s: Store)
    requires c == Config("nb", "", "/", ".s3keep")
    requires s.objects == map["nb/a/x" := []]
    ensures FlatCopy(c, s, {"a/x"}, "a", "nb")
  {
    var k, t := "nb/a/x", "nb/x";
    assert |t| < |k| && t != k && !StartsWith(t, k + "/") && "nb/" + "a/x" == k;
    assert !IsDirKey(s, k) by {
      assert forall w :: w in s.objects ==> w == k;
    }
    TargetIntoBucketName(c);
    ExampleKey(c, "a/x");
    FlatCopyOfOne(c, s, "a/x", "a", "nb");
  }

  /** Under bucket `nb`, the path `nb` loses the bucket and names the key `nb/`. */
  lemma KeyOfBucketName(c: Config)
    requires c == Config("nb", "", "/", ".s3keep")
    ensures FullKey(c, "nb") == "nb/"
  {
    assert GetPrefix(c) == "nb";
    assert StartsWith("nb", "nb") && "nb"[2..] == [];
    assert UnprefixOne(c, "nb") == [];
  }

  /** Under bucket `nb`, `a/x` copied from `a` onto `nb` has the target `nb/x`. */
  lemma TargetIntoBucketName(c: Config)
    requires c == Config("nb", "", "/", ".s3keep")
    ensures Target(c, "a/x", "a", "nb") == "nb/x"
  {
    var t := "nb/x";
    assert StartsWith("a/x", "a") && "a/x"[1..] == "/x" && "nb" + "/x" == t;
    assert ReplaceFirst("a/x", "a", "nb") == t;
    assert GetPrefix(c) + c.delimiter == "nb/";
    assert StartsWith(t, "nb/") && t[3..] == "x" && "nb/" + "x" == t;
  }

  /** In the example, the entry `a/x` has the key `nb/a/x` and the target
      `nb/b/x`, which is neither that key nor under it. */
  lemma ExampleTarget(c: Config)
    requires c == Config("nb", "", "/", ".s3keep")
    ensures FullKey(c, "a/x") == "nb/a/x"
    ensures Target(c, "a/x", "a", "b") == "nb/b/x"
    ensures !StartsWith("nb/b/x", "nb/a/x" + "/")
  {
    var ch, k, t := "a/x", "nb/a/x", "nb/b/x";
    assert "nb/" + ch == k && "nb/" + "b/x" == t;
    assert StartsWith(ch, "a") && ch[1..] == "/x" && "b" + "/x" == "b/x";
    assert |t| < |k + "/"|;
    ExampleKey(c, ch);
    ExampleKey(c, "b/x");
  }

  /** A directory with a single plain entry whose target is neither the
      entry's key nor under it is a flat copy. */
  lemma FlatCopyOfOne(c: Config, s: Store, ch: string, oldPath: string, newPath: string)
    requires FullKey(c, ch) in s.objects && !IsDirKey(s, FullKey(c, ch))
    requires Target(c, ch, oldPath, newPath) != FullKey(c, ch)
    requires !StartsWith(Target(c, ch, oldPath, newPath), FullKey(c, ch) + "/")
    ensures FlatCopy(c, s, {ch}, oldPath, newPath)
  {
    PlainOne(c, s, ch);
    ApartOne(c, ch, oldPath, newPath);
  }

  /** One plain file is a set of plain entries. */
  lemma PlainOne(c: Config, s: Store, ch: string)
    requires FullKey(c, ch) in s.objects && !IsDirKey(s, FullKey(c, ch))
    ensures PlainEntries(c, s, {ch})
  {
    forall x | x in {ch}
      ensures FullKey(c, x) in s.objects && !IsDirKey(s, FullKey(c, x))
    {
      assert x == ch;
    }
  }

  /** One entry whose target is apart from its key has its targets apart. */
  lemma ApartOne(c: Config, ch: string, oldPath: string, newPath: string)
    requires Target(c, ch, oldPath, newPath) != FullKey(c, ch)
    requires !StartsWith(Target(c, ch, oldPath, newPath), FullKey(c, ch) + "/")
    ensures TargetsApart(c, {ch}, oldPath, newPath)
  {
    forall x, y | x in {ch} && y in {ch}
      ensures Target(c, x, oldPath, newPath) != FullKey(c, y)
      ensures !StartsWith(Target(c, x, oldPath, newPath), FullKey(c, y) + "/")
    {
      assert x == ch && y == ch;
    }
  }


  /** A directory whose listing has one entry has one child. */
  lemma ChildrenOfOne(c: Config, s: Store, path: string, k: Key)
    requires Listing(s, FullKey(c, path)) == {k}
    ensures Children(c, s, path) == {UnprefixOne(c, k)}
  {
    var es := Listing(s, FullKey(c, path));
    UnprefixImageOfOne(c, es, k);
  }

  /** Unprefixing every element of a one-element set. */
  lemma UnprefixImageOfOne(c: Config, es: set<Key>, k: Key)
    requires es == {k}
    ensures (set e | e in es :: UnprefixOne(c, e)) == {UnprefixOne(c, k)}
  {
  }

  /** Under bucket `nb` and no prefix, a path that starts with neither `n`
      nor `/` gets the key `nb/` followed by the path. */
  lemma ExampleKey(c: Config, p: string)
    requires c == Config("nb", "", "/", ".s3keep")
    requires p != [] && p[0] != 'n' && p[0] != '/'
    ensures FullKey(c, p) == "nb/" + p
  {
    assert GetPrefix(c) == "nb";
    assert !StartsWith(p, "nb") by {
      if |p| >= 2 { assert p[..2][0] == p[0]; }
    }
    assert !StartsWith(p, "/") by {
      assert p[..1][0] == p[0];
    }
    KeyOfPlainPath(c, p);
  }

  /** The listing of the example: `ls("a")` is `["a/x"]`. */
  lemma ExampleListing(c: Config, s: Store)
    requires c == Config("nb", "", "/", ".s3keep")
    requires s.objects == map["nb/a/x" := []]
    ensures Children(c, s, "a") == {"a/x"}
  {
    var dir, name, k := "nb/a", "x", "nb/a/x";
    assert dir + "/" + name == k && "nb/" + "a" == dir;
    assert GetPrefix(c) == "nb";
    assert GetPrefix(c) + c.delimiter + "a/x" == k;
    assert s.objects.Keys == {k};
    ExampleKey(c, "a");
    ChildEntryOfFile(dir, name);
    ListingOfOne(s, dir, k);
    UnprefixUnderRoot(c, "a/x");
    ChildrenOfOne(c, s, "a", k);
  }

  // -----------------------------------------------------------------------
  // Properties of reads and writes

  /** A truthy pin on a notebook whose pinned version parses is served from
      that version, with requested and current set to the pin and latest
      set to the key's latest id; the pin table is kept. */
  lemma ReadPinned(c: Config, codecs: Codecs, s: Store, pins: map<string, Option<VersionId>>,
                   path: string, history: seq<VersionRecord>)
    requires JsonRoundTrip(codecs)
    requires Valid(s) && FullKey(c, path) in s.objects
    requires IsNotebookPath(path) && Truthy(PinOf(pins, path))
    requires (FullKey(c, path), PinOf(pins, path).value) in s.versions
    requires codecs.parseNotebook(s.versions[(FullKey(c, path), PinOf(pins, path).value)]).Some?
    ensures var sel := Select(c, codecs, s, pins, path, history);
            var pin := PinOf(pins, path).value;
            && !sel.clearPins && sel.content.Ok?
            && codecs.parseNotebook(sel.content.value) ==
                 Some(DecoratePinned(codecs.parseNotebook(s.versions[(FullKey(c, path), pin)]).value,
                                     history, pin, s.latest[FullKey(c, path)]))
            && var m := codecs.parseNotebook(sel.content.value).value.metadata;
               m.requested == Id(pin) && m.current == Id(pin) && m.latest == Id(s.latest[FullKey(c, path)])
  {
  }

  /** Without a truthy pin, or on a file that is not a notebook, a read is
      served from the latest version and keeps the pin table; a notebook
      comes back with requested null and current equal to latest, any other
      file unmodified. */
  lemma ReadLatest(c: Config, codecs: Codecs, s: Store, pins: map<string, Option<VersionId>>,
                   path: string, history: seq<VersionRecord>)
    requires Valid(s) && FullKey(c, path) in s.objects
    requires !(Truthy(PinOf(pins, path)) && IsNotebookPath(path))
    ensures var sel := Select(c, codecs, s, pins, path, history);
            && !sel.clearPins
            && (!IsNotebookPath(path) ==> sel.content == Ok(s.objects[FullKey(c, path)]))
            && (IsNotebookPath(path) && JsonRoundTrip(codecs) &&
                codecs.parseNotebook(s.objects[FullKey(c, path)]).Some? ==>
                  sel.content.Ok? &&
                  codecs.parseNotebook(sel.content.value) ==
                    Some(DecorateLatest(codecs.parseNotebook(s.objects[FullKey(c, path)]).value,
                                        history, s.latest[FullKey(c, path)])) &&
                  var m := codecs.parseNotebook(sel.content.value).value.metadata;
                  m.requested == Null && m.current == m.latest == Id(s.latest[FullKey(c, path)]))
  {
  }

  /** The pin table is emptied exactly when the pinned version of a
      notebook opens but fails to parse or decorate; the read then serves
      the latest version. */
  lemma ReadFallback(c: Config, codecs: Codecs, s: Store, pins: map<string, Option<VersionId>>,
                     path: string, history: seq<VersionRecord>)
    requires Valid(s) && FullKey(c, path) in s.objects
    ensures var sel := Select(c, codecs, s, pins, path, history);
            var key, pin := FullKey(c, path), PinOf(pins, path);
            && (sel.clearPins <==>
                  Truthy(pin) && IsNotebookPath(path) && (key, pin.value) in s.versions &&
                  DecoratedPin(codecs, s.versions[(key, pin.value)], history, pin.value, s.latest[key]).None?)
            && (sel.clearPins ==> sel.content == LoadLatest(codecs, s, key, true, history))
            && (JsonRoundTrip(codecs) && sel.clearPins ==>
                  codecs.parseNotebook(s.versions[(key, pin.value)]).None?)
  {
  }

  /** A path in normal form is written where it is read. */
  lemma NormalizedWriteKey(c: Config, path: string)
    requires Normalized(c, path)
    ensures WriteKey(c, path) == FullKey(c, path)
  {
  }

  /** A write unprefixes its path once more than a read does, so the two can
      land on different keys. With no prefix and a path that is just the
      delimiter (bucket `nb`, delimiter `/`, path `/`), the write goes to the
      bucket's own key `nb` and the read looks at `nb/`. */
  lemma WriteReadKeysDiffer(c: Config, path: string)
    requires c.prefix == [] && |c.delimiter| == 1 && path == c.delimiter
    requires !StartsWith(path, c.bucket)
    ensures WriteKey(c, path) == c.bucket
    ensures FullKey(c, path) == c.bucket + c.delimiter
    ensures WriteKey(c, path) != FullKey(c, path)
  {
    assert StripRoot(c, path) == path;
    assert UnprefixOne(c, path) == [];
  }

  /** A text write followed by a text read of a file that is not a notebook
      returns the written string. */
  lemma {:induction false} TextRoundTrip(c: Config, codecs: Codecs, s: Store,
                                         pins: map<string, Option<VersionId>>,
                                         path: string, text: string, history: seq<VersionRecord>)
    requires Utf8RoundTrip(codecs)
    requires Valid(s) && WriteKey(c, path) == FullKey(c, path) && !IsNotebookPath(path)
    requires EncodeForWrite(codecs, text, Some("text"), WriteKey(c, path)).Ok?
    ensures var s' := Put(s, WriteKey(c, path), EncodeForWrite(codecs, text, Some("text"), WriteKey(c, path)).value);
            && FullKey(c, path) in s'.objects
            && Finish(codecs, Select(c, codecs, s', pins, path, history).content, Some("text"), FullKey(c, path))
                 == Ok(ReadResult(text, Text))
  {
    var b := EncodeForWrite(codecs, text, Some("text"), WriteKey(c, path)).value;
    var s' := Put(s, FullKey(c, path), b);
    ReadLatest(c, codecs, s', pins, path, history);
    assert codecs.utf8Decode(b) == Some(text);
  }

  /** A base64 write followed by a base64 read of a file that is not a
      notebook returns the written string, when that string is the
      canonical encoding of what it decodes to. */
  lemma {:induction false} Base64RoundTrip(c: Config, codecs: Codecs, s: Store,
                                           pins: map<string, Option<VersionId>>,
                                           path: string, text: string, history: seq<VersionRecord>)
    requires Valid(s) && WriteKey(c, path) == FullKey(c, path) && !IsNotebookPath(path)
    requires EncodeForWrite(codecs, text, Some("base64"), WriteKey(c, path)).Ok?
    requires codecs.b64Encode(EncodeForWrite(codecs, text, Some("base64"), WriteKey(c, path)).value) == text
    ensures var s' := Put(s, WriteKey(c, path), EncodeForWrite(codecs, text, Some("base64"), WriteKey(c, path)).value);
            && FullKey(c, path) in s'.objects
            && Finish(codecs, Select(c, codecs, s', pins, path, history).content, Some("base64"), FullKey(c, path))
                 == Ok(ReadResult(text, Base64))
  {
    var b := EncodeForWrite(codecs, text, Some("base64"), WriteKey(c, path)).value;
    var s' := Put(s, FullKey(c, path), b);
    ReadLatest(c, codecs, s', pins, path, history);
  }
}

=== FILE: s3manager.dfy ===
/** S3ContentsManager._save_notebook (s3manager.py:67-111): the save-time
    reconciliation of the version the editor asked for, the version it
    shows and the latest version, over the S3FS it writes through. */
module S3Manager {
  import opened Types
  import opened PathAlgebra
  import opened ObjectStore
  import opened Notebook
  import opened S3Fs

  /** The contents model a save receives: the notebook and the optional
      message `save_model` returns. */
  datatype Model = Model(content: Notebook, message: Option<string>)

  /** A call of the collaborator `create_release_tag(path, tag, name)`. */
  datatype ReleaseCall = ReleaseCall(path: string, tag: int, name: string)

  /** All three version fields are present (s3manager.py:77). */
  predicate HasVersioning(m: Metadata)
  {
    !m.requested.Missing? && !m.current.Missing? && !m.latest.Missing?
  }

  // The three booleans of s3manager.py:82-84 and the four cases derived
  // from them (s3manager.py:86-89).

  predicate VersionChanged(m: Metadata) { m.requested != m.current }

  predicate VersionLatest(m: Metadata) { m.current == m.latest }

  predicate VersionRequested(m: Metadata) { m.latest != Null }

  predicate VersionChangedNotLatest(m: Metadata)
  {
    VersionChanged(m) && !VersionLatest(m) && VersionRequested(m)
  }

  predicate VersionChangedLatest(m: Metadata)
  {
    VersionChanged(m) && VersionLatest(m) && VersionRequested(m)
  }

  predicate ContentChangedNotLatest(m: Metadata)
  {
    (!VersionChanged(m) || !VersionRequested(m)) && !VersionLatest(m)
  }

  predicate ContentChangedLatest(m: Metadata)
  {
    (!VersionChanged(m) || !VersionRequested(m)) && VersionLatest(m)
  }

  /** The four outcomes of a save. */
  datatype Decision =
    | PlainSave                       // no versioning fields: save as is
    | PinVersion                      // record the requested version, write nothing
    | RejectOverwrite                 // 'Cannot overwrite older versions'
    | LatestSave(versionChanged: bool) // save on the latest path

  /** The branch `_save_notebook` takes (s3manager.py:77-111). */
  function Decide(m: Metadata): (d: Decision)
    ensures d == PlainSave <==> !HasVersioning(m)
    ensures d == PinVersion <==> HasVersioning(m) && VersionChangedNotLatest(m)
    ensures d == RejectOverwrite <==> HasVersioning(m) && ContentChangedNotLatest(m)
    ensures d.LatestSave? <==> HasVersioning(m) && (VersionChangedLatest(m) || ContentChangedLatest(m))
    ensures d.LatestSave? ==> d.versionChanged == VersionChangedLatest(m)
  {
    if !HasVersioning(m) then PlainSave
    else if VersionChangedNotLatest(m) then PinVersion
    else if ContentChangedNotLatest(m) then RejectOverwrite
    else LatestSave(VersionChangedLatest(m))
  }

  /** The release-tag step of a latest-path save (s3manager.py:98-106): the
      counter starts at 0 and goes up by one, and the request is removed. */
  function Tagged(m: Metadata): (r: Metadata)
    requires m.createRelease.Some?
    ensures r.releaseTag.Some?
    ensures m.releaseTag.None? ==> r.releaseTag == Some(0)
    ensures m.releaseTag.Some? ==> r.releaseTag.value == m.releaseTag.value + 1
    ensures r.createRelease.None?
    ensures r == m.(releaseTag := r.releaseTag, createRelease := None)
  {
    var tag := if m.releaseTag.Some? then m.releaseTag.value + 1 else 0;
    m.(releaseTag := Some(tag), createRelease := None)
  }

  /** The metadata a save writes: only the release fields can change, so
      the saved document makes the same decision again. */
  function MetadataAfterSave(m: Metadata): (r: Metadata)
    ensures r.versions == m.versions && r.other == m.other
    ensures r.requested == m.requested && r.current == m.current && r.latest == m.latest
    ensures Decide(r) == Decide(m)
    ensures r != m ==> Decide(m).LatestSave? && m.createRelease.Some? && r.createRelease.None?
  {
    if Decide(m).LatestSave? && m.createRelease.Some? then Tagged(m) else m
  }

  /** The pin table after a save that is not rejected. */
  function PinsAfterSave(pins: map<string, Option<VersionId>>, path: string, m: Metadata): (r: map<string, Option<VersionId>>)
    ensures Decide(m).PinVersion? || Decide(m).LatestSave? ==> r.Keys == pins.Keys + {path}
    ensures Decide(m).PlainSave? || Decide(m).RejectOverwrite? ==> r == pins
    ensures forall p :: p in pins && p != path ==> p in r && r[p] == pins[p]
    ensures (Decide(m).PinVersion? || Decide(m).LatestSave?) && Truthy(PinOf(r, path)) ==>
              m.requested.Id? && PinOf(r, path) == Some(m.requested.id)
  {
    match Decide(m)
    case PinVersion => pins[path := SlotValue(m.requested)]
    case LatestSave(changed) => pins[path := if changed then SlotValue(m.requested) else None]
    case _ => pins
  }

  /** The calls of `create_release_tag` a save adds. */
  function ReleaseCallsOf(path: string, m: Metadata): (r: seq<ReleaseCall>)
    ensures |r| <= 1
    ensures r != [] <==> Decide(m).LatestSave? && m.createRelease.Some?
    ensures r != [] ==>
              && r[0].path == path && r[0].name == m.createRelease.value
              && MetadataAfterSave(m).releaseTag == Some(r[0].tag)
  {
    if Decide(m).LatestSave? && m.createRelease.Some? then
      [ReleaseCall(path, Tagged(m).releaseTag.value, m.createRelease.value)]
    else []
  }

  /** What `save_model` returns and leaves in the store: the JSON text of
      the content is written as UTF-8 under the notebook's key, and an
      encoding failure writes nothing. */
  function Saved(codecs: Codecs, c: Config, s: Store, model: Model, path: string): (rs: (Result<Option<string>>, Store))
    ensures Valid(s) ==> Valid(rs.1)
    ensures rs.0.Ok? ==> rs.0.value == model.message
    ensures rs.0.Ok? <==> codecs.utf8Encode(codecs.dumpNotebook(model.content)).Some?
    ensures rs.0.Err? ==> rs.0.error == EncodingError(WriteKey(c, path)) && rs.1 == s
    ensures rs.0.Ok? ==>
              rs.1.objects == s.objects[WriteKey(c, path) := codecs.utf8Encode(codecs.dumpNotebook(model.content)).value]
  {
    var enc := codecs.utf8Encode(codecs.dumpNotebook(model.content));
    if enc.Some? then (Ok(model.message), Put(s, WriteKey(c, path), enc.value))
    else (Err(EncodingError(WriteKey(c, path))), s)
  }

  class S3ContentsManager {
    const fs: S3FS
    /** The calls made to `create_release_tag`, oldest first. */
    var releaseCalls: seq<ReleaseCall>

    constructor (fs: S3FS)
      ensures this.fs == fs && releaseCalls == []
    {
      this.fs := fs;
      releaseCalls := [];
    }

    /** save_model (s3manager.py:68-74): serialise the content and write it
        as the notebook at `path`; signing and validation are not modelled. */
    method SaveModel(model: Model, path: string) returns (r: Result<Option<string>>)
      requires fs.Valid()
      modifies fs`store
      ensures fs.Valid()
      ensures (r, fs.store) == Saved(fs.codecs, fs.config, old(fs.store), model, path)
    {
      var text := fs.codecs.dumpNotebook(model.content);
      var outcome := fs.WriteNotebook(path, text);
      if outcome.Fail? {
        return Err(outcome.error);
      }
      r := Ok(model.message);
    }

    /** _save_notebook (s3manager.py:67-111). `saved` is the model as the
        caller sees it afterwards: the source edits its metadata in place. */
    method SaveNotebook(model: Model, path: string) returns (r: Result<Option<string>>, saved: Model)
      requires fs.Valid()
      modifies fs`store, fs`pins, this`releaseCalls
      ensures fs.Valid()
      ensures saved == model.(content := model.content.(metadata := MetadataAfterSave(model.content.metadata)))
      ensures Decide(model.content.metadata).RejectOverwrite? ==>
                r == Err(OverwriteRejected(path)) && fs.pins == old(fs.pins) &&
                fs.store == old(fs.store) && releaseCalls == old(releaseCalls)
      ensures !Decide(model.content.metadata).RejectOverwrite? ==>
                fs.pins == PinsAfterSave(old(fs.pins), path, model.content.metadata) &&
                releaseCalls == old(releaseCalls) + ReleaseCallsOf(path, model.content.metadata)
      ensures Decide(model.content.metadata).PinVersion? ==> r == Ok(None) && fs.store == old(fs.store)
      ensures Decide(model.content.metadata).PlainSave? || Decide(model.content.metadata).LatestSave? ==>
                (r, fs.store) == Saved(fs.codecs, fs.config, old(fs.store), saved, path)
    {
      var m := model.content.metadata;
      saved := model;
      if !HasVersioning(m) {
        assert MetadataAfterSave(m) == m && ReleaseCallsOf(path, m) == [];
        r := SaveModel(model, path);
        return;
      }
      var versionChanged := m.requested != m.current;
      var versionLatest := m.current == m.latest;
      var versionRequested := m.latest != Null;
      var changedNotLatest := versionChanged && !versionLatest && versionRequested;
      var changedLatest := versionChanged && versionLatest && versionRequested;
      var contentNotLatest := (!versionChanged || !versionRequested) && !versionLatest;
      var contentLatest := (!versionChanged || !versionRequested) && versionLatest;

      if changedNotLatest {
        assert Decide(m) == PinVersion;
        assert MetadataAfterSave(m) == m && ReleaseCallsOf(path, m) == [];
        fs.pins := fs.pins[path := SlotValue(m.requested)];
        assert fs.pins == PinsAfterSave(old(fs.pins), path, m);
      }
      if contentNotLatest {
        assert Decide(m) == RejectOverwrite;
        return Err(OverwriteRejected(path)), saved;
      }
      if contentLatest || changedLatest {
        assert Decide(m) == LatestSave(changedLatest);
        var md := m;
        if m.createRelease.Some? {
          var tag := if md.releaseTag.Some? then md.releaseTag.value + 1 else 0;
          md := md.(releaseTag := Some(tag));
          releaseCalls := releaseCalls + [ReleaseCall(path, tag, md.createRelease.value)];
          md := md.(createRelease := None);
        }
        assert md == MetadataAfterSave(m);
        assert releaseCalls == old(releaseCalls) + ReleaseCallsOf(path, m);
        if changedLatest {
          fs.pins := fs.pins[path := SlotValue(m.requested)];
        } else {
          fs.pins := fs.pins[path := None];
        }
        assert fs.pins == PinsAfterSave(old(fs.pins), path, m);
        saved := model.(content := model.content.(metadata := md));
        r := SaveModel(saved, path);
        return;
      }
      r := Ok(None);
    }
  }

  // -----------------------------------------------------------------------
  // Properties of the reconciliation

  /** With the three fields present, exactly one of the four cases holds. */
  lemma ExactlyOneCase(m: Metadata)
    requires HasVersioning(m)
    ensures (if VersionChangedNotLatest(m) then 1 else 0) + (if VersionChangedLatest(m) then 1 else 0)
          + (if ContentChangedNotLatest(m) then 1 else 0) + (if ContentChangedLatest(m) then 1 else 0) == 1
  {
  }

  /** The decision table, stated on the three fields themselves. */
  lemma DecisionTable(m: Metadata)
    ensures Decide(m) == PlainSave <==> m.requested.Missing? || m.current.Missing? || m.latest.Missing?
    ensures Decide(m) == PinVersion <==>
              HasVersioning(m) && m.requested != m.current && m.current != m.latest && m.latest != Null
    ensures Decide(m) == RejectOverwrite <==>
              HasVersioning(m) && m.current != m.latest && (m.requested == m.current || m.latest == Null)
    ensures Decide(m) == LatestSave(true) <==>
              HasVersioning(m) && m.requested != m.current && m.current == m.latest && m.latest != Null
    ensures Decide(m) == LatestSave(false) <==>
              HasVersioning(m) && m.current == m.latest && (m.requested == m.current || m.latest == Null)
  {
  }

  /** Pinning a historical version records the requested id and writes
      nothing; a latest-path save leaves the requested id pinned when the
      version changed, and clears the pin otherwise. */
  lemma PinsAfterEachSave(pins: map<string, Option<VersionId>>, path: string, m: Metadata)
    ensures Decide(m).PinVersion? || Decide(m) == LatestSave(true) ==>
              PinsAfterSave(pins, path, m) == pins[path := SlotValue(m.requested)]
    ensures Decide(m) == LatestSave(false) ==> PinsAfterSave(pins, path, m) == pins[path := None]
    ensures Decide(m).PlainSave? || Decide(m).RejectOverwrite? ==> PinsAfterSave(pins, path, m) == pins
  {
  }

  /** Only a latest-path save with a release request touches the release
      fields; it numbers the release one past the previous one. */
  lemma ReleaseOnlyOnLatestSave(m: Metadata)
    ensures !(Decide(m).LatestSave? && m.createRelease.Some?) ==> MetadataAfterSave(m) == m
    ensures Decide(m).LatestSave? && m.createRelease.Some? ==>
              MetadataAfterSave(m).createRelease.None? &&
              MetadataAfterSave(m).releaseTag == Some(if m.releaseTag.Some? then m.releaseTag.value + 1 else 0)
  {
  }

  /** `n` successive release saves, each asking for a release named `name`. */
  function Releases(m: Metadata, name: string, n: nat): Metadata
  {
    if n == 0 then m else Tagged(Releases(m, name, n - 1).(createRelease := Some(name)))
  }

  /** Release tags count the releases of a document: starting without a
      counter, the n-th release is tagged n - 1. */
  lemma {:induction false} ReleaseCounter(m: Metadata, name: string, n: nat)
    requires m.releaseTag.None?
    requires n > 0
    ensures Releases(m, name, n).releaseTag == Some(n - 1)
  {
    if n > 1 {
      ReleaseCounter(m, name, n - 1);
    }
  }

  /** After a save that changed the version on the latest path, the save
      has written the document as the new latest version, and the next read
      of the notebook is served from the requested version: the pin now
      holds the requested id, so the read decorates that historical version
      and reports the new latest id. */
  lemma SaveThenReadPinned(c: Config, codecs: Codecs, s0: Store,
                           pins: map<string, Option<VersionId>>, path: string,
                           model: Model, history: seq<VersionRecord>)
    requires Decide(model.content.metadata) == LatestSave(true)
    requires model.content.metadata.requested.Id? && model.content.metadata.requested.id != []
    requires JsonRoundTrip(codecs)
    requires Valid(s0) && WriteKey(c, path) == FullKey(c, path) && IsNotebookPath(path)
    requires (FullKey(c, path), model.content.metadata.requested.id) in s0.versions
    requires codecs.parseNotebook(s0.versions[(FullKey(c, path), model.content.metadata.requested.id)]).Some?
    ensures var m := model.content.metadata;
            var id, key := m.requested.id, FullKey(c, path);
            var saved := model.(content := model.content.(metadata := MetadataAfterSave(m)));
            var s1 := Saved(codecs, c, s0, saved, path).1;
            && Saved(codecs, c, s0, saved, path).0.Ok?
            && Valid(s1) && key in s1.objects
            && codecs.parseNotebook(s1.objects[key]) == Some(saved.content)
            && (key, id) in s1.versions && s1.versions[(key, id)] == s0.versions[(key, id)]
            && var sel := Select(c, codecs, s1, PinsAfterSave(pins, path, m), path, history);
               && !sel.clearPins && sel.content.Ok?
               && codecs.parseNotebook(sel.content.value) ==
                    Some(DecoratePinned(codecs.parseNotebook(s0.versions[(key, id)]).value,
                                        history, id, s1.latest[key]))
  {
    var m := model.content.metadata;
    var id, key := m.requested.id, FullKey(c, path);
    var saved := model.(content := model.content.(metadata := MetadataAfterSave(m)));
    var enc := codecs.utf8Encode(codecs.dumpNotebook(saved.content));
    assert enc.Some?;
    var s1 := Saved(codecs, c, s0, saved, path).1;
    assert s1 == Put(s0, key, enc.value);
    var pins' := PinsAfterSave(pins, path, m);
    assert PinOf(pins', path) == Some(id);
    ReadPinned(c, codecs, s1, pins', path, history);
  }
}

=== FILE: store.dfy ===
/** The versioned object store underneath S3FS, as a value: a flat map from
    key to bytes plus the version history a versioned bucket keeps. The
    operations are the client calls S3FS makes (`touch`, `copy`, `rm`, a
    write through `open(..., 'wb')`, `isfile`, `isdir`, `ls`). */
module ObjectStore {
  import opened Types
  import opened PathAlgebra

  type Key = string

  type VersionId = string

  /** `objects` holds the latest bytes of every live key and `latest` the id
      of that version; `versions` holds every version ever written, by key
      and id (deleting a key keeps its history, as a versioned bucket does);
      `minted` counts the version ids handed out so far. */
  datatype Store = Store(
    objects: map<Key, Bytes>,
    latest: map<Key, VersionId>,
    versions: map<(Key, VersionId), Bytes>,
    minted: nat)

  /** The store's bookkeeping: every live key has a latest id whose version
      holds the live bytes, and no recorded id is longer than the ids
      minted so far. */
  ghost predicate Valid(s: Store)
  {
    && s.objects.Keys == s.latest.Keys
    && (forall k :: k in s.objects ==>
          (k, s.latest[k]) in s.versions && s.versions[(k, s.latest[k])] == s.objects[k])
    && (forall kv :: kv in s.versions ==> |kv.1| <= s.minted)
  }

  /** The n-th version id the store hands out. Ids are opaque to S3FS; all
      the model needs is that they are non-empty and pairwise distinct. */
  function MintId(n: nat): (id: VersionId)
    ensures |id| == n + 1
  {
    seq(n + 1, _ => 'v')
  }

  /** Store `b` under `k` as a new version that becomes the latest. */
  function Put(s: Store, k: Key, b: Bytes): (r: Store)
    ensures Valid(s) ==> Valid(r)
    ensures r.objects == s.objects[k := b]
    ensures r.latest == s.latest[k := MintId(s.minted)]
    ensures Valid(s) ==> (k, r.latest[k]) !in s.versions
    ensures forall kv :: kv in s.versions ==> kv in r.versions
    ensures Valid(s) ==> forall kv :: kv in s.versions ==> r.versions[kv] == s.versions[kv]
  {
    var id := MintId(s.minted);
    Store(s.objects[k := b], s.latest[k := id], s.versions[(k, id) := b], s.minted + 1)
  }

  /** Remove the live keys `ks`; their history stays. */
  function Delete(s: Store, ks: set<Key>): (r: Store)
    ensures Valid(s) ==> Valid(r)
    ensures r.objects == s.objects - ks
    ensures r.versions == s.versions
  {
    Store(s.objects - ks, s.latest - ks, s.versions, s.minted)
  }

  /** A server-side copy of the latest version of `src` to `dst`. */
  function Copy(s: Store, src: Key, dst: Key): (r: Store)
    requires src in s.objects
    ensures Valid(s) ==> Valid(r)
    ensures r.objects == s.objects[dst := s.objects[src]]
  {
    Put(s, dst, s.objects[src])
  }

  /** `isfile`: an object exists under exactly this key. */
  predicate IsFileKey(s: Store, k: Key)
  {
    k in s.objects
  }

  /** `isdir`: some object lies under `k + "/"`. The s3fs client splits
      keys at "/" whatever delimiter S3FS is configured with. */
  predicate IsDirKey(s: Store, k: Key)
  {
    exists k' :: k' in s.objects && StartsWith(k', k + "/")
  }

  /** Storing a key that is not under `d + "/"` does not make `d` a directory. */
  lemma NotDirAfterPut(s: Store, k: Key, b: Bytes, d: Key)
    requires !IsDirKey(s, d) && !StartsWith(k, d + "/")
    ensures !IsDirKey(Put(s, k, b), d)
  {
  }

  /** The live keys under a key prefix (what a recursive `rm` deletes). */
  function KeysUnder(s: Store, p: string): (ks: set<Key>)
    ensures forall k :: k in ks <==> k in s.objects && StartsWith(k, p)
  {
    set k | k in s.objects && StartsWith(k, p)
  }

  /** The first path segment of `s`: everything before its first "/". */
  function FirstSegment(s: string): (r: string)
    ensures StartsWith(s, r)
    ensures '/' !in r
    ensures |r| == |s| || s[|r|] == '/'
  {
    if s == [] || s[0] == '/' then []
    else
      var t := FirstSegment(s[1..]);
      assert (s[..1 + |t|]) == [s[0]] + s[1..][..|t|];
      [s[0]] + t
  }

  /** The entry a non-recursive listing of directory `dir` shows for the key
      `k` below it: `k` itself, or the sub-directory that holds it. */
  function ChildEntry(dir: Key, k: Key): (e: Key)
    requires StartsWith(k, dir + "/")
    ensures StartsWith(e, dir + "/")
    ensures StartsWith(k, e)
    ensures '/' !in e[|dir| + 1..]
    ensures |e| == |k| || k[|e|] == '/'
  {
    var seg := FirstSegment(k[|dir| + 1..]);
    var e := dir + "/" + seg;
    assert k[..|e|] == k[..|dir| + 1] + k[|dir| + 1..][..|seg|];
    assert e[|dir| + 1..] == seg;
    assert |seg| < |k[|dir| + 1..]| ==> k[|e|] == k[|dir| + 1..][|seg|];
    e
  }

  /** `ls(dir)`: the immediate entries of a directory, as full keys. */
  function Listing(s: Store, dir: Key): (es: set<Key>)
    ensures forall e :: e in es ==> StartsWith(e, dir + "/")
    ensures forall k :: k in s.objects && StartsWith(k, dir + "/") ==> ChildEntry(dir, k) in es
    ensures forall e :: e in es ==>
              exists k :: k in s.objects && StartsWith(k, dir + "/") && ChildEntry(dir, k) == e
  {
    set k | k in s.objects && StartsWith(k, dir + "/") :: ChildEntry(dir, k)
  }

  /** A key directly inside a directory is its own listing entry. */
  lemma ChildEntryOfFile(dir: Key, name: string)
    requires '/' !in name
    ensures ChildEntry(dir, dir + "/" + name) == dir + "/" + name
  {
    var k := dir + "/" + name;
    assert k[|dir| + 1..] == name;
    forall i | |dir| + 1 <= i < |k| ensures k[i] != '/' {
      assert k[i] == name[i - |dir| - 1];
    }
    var e := ChildEntry(dir, k);
    assert |e| == |k|;
    assert e == k[..|e|];
  }

  /** A store with one key below `dir` lists exactly that key's entry. */
  lemma ListingOfOne(s: Store, dir: Key, k: Key)
    requires s.objects.Keys == {k} && StartsWith(k, dir + "/")
    ensures Listing(s, dir) == {ChildEntry(dir, k)}
  {
  }

  /** `isdir(k)` holds exactly when `ls(k)` has an entry, and exactly when a
      recursive `rm` of `k + "/"` has a key to delete. */
  lemma DirIffListed(s: Store, k: Key)
    ensures IsDirKey(s, k) <==> Listing(s, k) != {}
    ensures IsDirKey(s, k) <==> KeysUnder(s, k + "/") != {}
  {
    if IsDirKey(s, k) {
      var w :| w in s.objects && StartsWith(w, k + "/");
      assert ChildEntry(k, w) in Listing(s, k);
      assert w in KeysUnder(s, k + "/");
    }
  }

  /** Every entry of a listing is a file or a directory of the store. */
  lemma ListedEntryKind(s: Store, dir: Key, e: Key)
    requires e in Listing(s, dir)
    ensures IsFileKey(s, e) || IsDirKey(s, e)
  {
    var k :| k in s.objects && StartsWith(k, dir + "/") && ChildEntry(dir, k) == e;
    if |e| < |k| {
      assert k[..|e| + 1] == e + "/";
      assert StartsWith(k, e + "/");
    } else {
      assert k == e;
    }
  }
}

=== FILE: types.dfy ===
/** Shared value types: options, results, bytes and the error kinds the
    file system and the contents manager raise. */
module Types {

  datatype Option<+T> = None | Some(value: T)

  /** A byte of an object stored in the bucket. */
  newtype byte = x: int | 0 <= x < 256

  type Bytes = seq<byte>

  /** The exceptions of the core, one constructor per raise site. The
      string fields carry the key or path that appears in the message. */
  datatype Error =
    | NoSuchFile(key: string)                 // read of a key that is not a file
    | BadFormat                               // write format outside {text, base64}
    | NotUtf8(key: string)                    // read with format 'text' of non UTF-8 content
    | EncodingError(key: string)              // write whose content cannot be encoded or decoded
    | NoSuchVersion(key: string, id: string)  // the pinned version cannot be opened
    | NotNotebookJson(key: string)            // latest notebook content is not notebook JSON
    | OverwriteRejected(path: string)         // 'Cannot overwrite older versions'

  datatype Result<+T> = Ok(value: T) | Err(error: Error)

  /** The result of an operation that returns nothing on success. */
  datatype Outcome = Pass | Fail(error: Error)
}
